=== FILE: README.md ===
# DPPVI core in Dafny

A model of the bookkeeping and rule code around differentially private
partitioned variational inference (DP-PVI). It does not model the
optimisation. The model has eight modules, one file each:

- `outcomes.dfy` (`Outcomes`): `Option`, `Result`, sums of reals and absolute values.
- `exp_family.dfy` (`ExpFamily`): the closed-form standard ↔ natural ↔ mean
  parameter maps of the mean-field Gaussian (shared by the log-normal), Dirichlet, Gamma
  and Multinomial distributions.
- `partition.dfy` (`Partition`): `generate_clients_data`, which splits a labelled
  dataset into `M` client shards: `M/2` small shards of a planned class
  composition and `M/2` big shards from the shuffled rest.
- `calibration.dfy` (`Calibration`): `bin_search_sigma`, the bisection that
  calibrates the noise level against a privacy accountant.
- `metrics.dfy` (`Metrics`): the confusion counts of `get_posneg` at a grid of thresholds.
- `clients.dfy` (`Clients`): the client factory `set_up_clients` and the migration
  `init_clients_from_existing`.
- `global_vi.dfy` (`GlobalVi`): the global VI server. This covers the pooling of client
  data, `should_stop`, and the counter and log bookkeeping of `tick`.
- `run_config.dfy` (`RunConfig`): the run set-up in `main` of the logistic
  regression example. This covers the argument checks, the learning-rate milestones,
  the prior and initial factors, the client factory call and the server choice.

Shuffles are permutations picked by an arbitrary draw function `rng`. The
privacy accountant, the exponential function, the optimiser step and the
minibatch losses are function parameters. Python floats are Dafny reals.
The Gaussian is held by its variance (the square of the scale). A negative
variance stands for the NaN scale the source computes from the root of a
negative number.

Where the code and the usual description of the system differ, the model
follows the code:

- A `tick` on a stopped server returns `False` and changes nothing. It does not fail.
- The bisection does not fall back to a bracket end. Suppose the accountant is
  non-increasing and a bracket end is already more than `tol` off the target on the
  far side. Then the search returns `None` (`TargetBelowBracketNotFound`,
  `TargetAboveBracketNotFound`). A miss of at most `tol` can still return a midpoint
  next to that end.
- Converting a Gaussian factor with `np2 > 0` and `enforce_pos_var` off gives a NaN
  scale. It does not raise.
- The mode `server` passes the first argument check and is refused by the fall-through
  branch.
- `param_fixed` passes the argument checks and is refused by the client factory.
- The argument checks let `dpsgd` through with both sampling options at once. The client
  factory then refuses it as user-level DP whenever there is a shard.
- The local modes `lfa`, `local_pvi` and `param` pass the argument checks with neither
  sampling option.

## Model

| member | source | states |
|---|---|---|
| ExpFamily.GaussianNatFromStd | pvi/distributions/exponential_family_distributions.py:59-70 | for a non-zero scale, `np1 · scale² = loc` and `-2 · np2 · scale² = 1` coordinatewise, so `np2 < 0` |
| ExpFamily.GaussianStdFromNat | pvi/distributions/exponential_family_distributions.py:72-91 | the recovered loc and variance satisfy the inverse equations; the variance is positive exactly when `np2 < 0` in the plain branch and always with `enforce_pos_var` |
| ExpFamily.GaussianStdRoundTrip | pvi/distributions/exponential_family_distributions.py:59-91 | for positive variances, standard → natural → standard (plain branch) gives back the same loc and variance |
| ExpFamily.GaussianNatRoundTrip | pvi/distributions/exponential_family_distributions.py:59-91 | natural parameters with `np2 < 0` survive natural → standard → natural unchanged |
| ExpFamily.EnforcePosVarAgreesOnProperGaussians | pvi/distributions/exponential_family_distributions.py:78-89 | with `enforce_pos_var` the variance is `0.5 / abs(np2)`, and the two branches agree whenever `np2 < 0` |
| ExpFamily.ZeroFactorHasNoStdForm | pvi/distributions/exponential_family_distributions.py:73-91 | the all-zero factor cannot be converted to standard parameters (division by `np2 = 0`) |
| ExpFamily.GaussianMeanFromStd | pvi/distributions/exponential_family_distributions.py:93-103 | `m1 = loc` and `m2 - m1² = scale²` |
| ExpFamily.GaussianMeanDeterminesStd | pvi/distributions/exponential_family_distributions.py:93-103 | the mean parameters determine the standard parameters |
| ExpFamily.DirichletStdFromNat | pvi/distributions/exponential_family_distributions.py:243-252 | the concentration is positive exactly when `np1 > -1` |
| ExpFamily.DirichletNatFromStd | pvi/distributions/exponential_family_distributions.py:232-241 | standard → natural → standard is the identity |
| ExpFamily.DirichletNatRoundTrip | pvi/distributions/exponential_family_distributions.py:232-252 | natural → standard → natural is the identity |
| ExpFamily.GammaStdFromNat | pvi/distributions/exponential_family_distributions.py:394-407 | the rate is positive exactly when `np2 < 0` |
| ExpFamily.GammaNatFromStd | pvi/distributions/exponential_family_distributions.py:379-392 | a positive rate gives `np2 < 0`, and standard → natural → standard is the identity for non-zero rates |
| ExpFamily.GammaNatRoundTrip | pvi/distributions/exponential_family_distributions.py:379-407 | natural → standard → natural is the identity for non-zero `np2` |
| ExpFamily.MultinomialStdFromNat | pvi/distributions/exponential_family_distributions.py:318-332 | the trial count passes through; every probability times the total weight `Σ exp(np2)` is its own weight `exp(np2[i])`, so the probabilities are positive, proportional to `exp(np2)` and sum to one |
| ExpFamily.Normalised | pvi/distributions/exponential_family_distributions.py:324-325 | dividing positive weights by their sum gives a vector summing to one |
| Partition.Shuffle | notebooks/examples/utils.py:520-523 | the shuffled shard has the same length and the same multiset of examples |
| Partition.ShuffleKeepsCounts | notebooks/examples/utils.py:520-533 | a shuffle keeps the number of examples of every label class |
| Partition.PySliceSplits | notebooks/examples/utils.py:507-515 | `s[:k] + s[k:] == s` for every `k`, negative included |
| Partition.SmallShardsConserve | notebooks/examples/utils.py:505-525 | the small-client loop neither loses nor invents an example: shards plus leftovers are the two pools |
| Partition.SmallShardsComposition | notebooks/examples/utils.py:505-525 | with pools large enough, every small shard holds exactly the planned positives and zero labels |
| Partition.BigShardsWithin | notebooks/examples/utils.py:535-543 | the big shards together draw from the shuffled pool without repeating an example |
| Partition.PlanSizes | notebooks/examples/utils.py:471-479 | the class balance is a fraction whose product with `N` is the number of zero labels; for `M > 0` a small and a big client together take at most `2N/M` examples, and a non-negative size factor makes the small client no bigger than the big one; a balance factor in `[0, 1]` keeps both class sizes of a non-negative small client between 0 and its size; factor 1 makes small clients all zero labels, factor 0 gives them the dataset's balance |
| Partition.SmallShards | notebooks/examples/utils.py:505-525 | the small-client loop makes `count` shards and leaves `max(0, len - count·size)` examples in each class pool |
| Partition.BigShards | notebooks/examples/utils.py:535-543 | the big-client loop makes `count` shards of at most `big_client_size` examples each, exactly that many when the pool holds `count · big_client_size` |
| Partition.GenerateClientsData | notebooks/examples/utils.py:454-551 | a successful split returns `M` itself, `M` shards for `M ≥ 2`, one for `M = 1` and none for a negative `M` (`range(int(M/2))` is empty), and `N_is` and `props_positive` give the size and positive fraction of each shard in order |
| Partition.ErrorTable | notebooks/examples/utils.py:462-495 | the split raises exactly the error an integer-count reference table predicts, in the source's order, and succeeds exactly when none applies |
| Partition.PoolChecksInCounts | notebooks/examples/utils.py:485-489 | the two real-valued pool checks are integer comparisons of `size · M/2` against the class counts |
| Partition.NegativeLabelsCounted | notebooks/examples/utils.py:492-495 | the index-count assertion fails exactly when some label is negative |
| Partition.SingleClientKeepsAll | notebooks/examples/utils.py:462-467 | with `M = 1` the result is the whole dataset as one shard with `N_is = [N]` |
| Partition.OddClientCountRefused | notebooks/examples/utils.py:469 | an odd `M` other than one is refused before any shard is made |
| Partition.SuccessfulSplit | notebooks/examples/utils.py:469-545 | a successful split with `M ≠ 1` had an even non-zero `M`, a non-empty dataset, non-negative class sizes and pools large enough, and its shards come from the two passes |
| Partition.DistributeDraws | notebooks/examples/utils.py:492-543 | the shards together are a sub-multiset of the dataset |
| Partition.ShardsDrawDisjointly | notebooks/examples/utils.py:462-551 | a successful split has `M` shards for `M ≥ 2`, no example is in two shards, and `sum(N_is) ≤ N` |
| Partition.ShardComposition | notebooks/examples/utils.py:472-543 | the first `M/2` shards hold exactly the planned positives and zero labels, `floor((1 - f) N / M)` in all; later shards hold at most `big_client_size` |
| Calibration.Search | notebooks/examples/utils.py:557-572 | a returned sigma is the midpoint tried by some iteration below `max_iters` |
| Calibration.SearchFindsFirstHit | notebooks/examples/utils.py:557-572 | the search returns `None` exactly when no iteration is within tolerance, and otherwise the midpoint of the first one that is |
| Calibration.BinSearchSigma | notebooks/examples/utils.py:555-572 | the loop agrees with the recursive search: it returns the first midpoint within `tol` of the target, or `None` after `max_iters` misses |
| Calibration.BinSearchSigmaAsWritten | notebooks/examples/utils.py:555-572 | the loop as written, with `cur` unbound until the first iteration: for `max_iters > 0` it returns what the search does, and for `max_iters ≤ 0` the final log line fails on the unbound `cur` |
| Calibration.NoIterationsRaises | notebooks/examples/utils.py:557-572 | with `max_iters = 0` the loop as written fails on the unbound `cur`, where the corrected loop returns `None` |
| Calibration.IterateKeepsStraddle | notebooks/examples/utils.py:558-570 | a bracket with `eps(ubound) < target ≤ eps(lbound)` keeps that property after every iteration |
| Calibration.IterateHalves | notebooks/examples/utils.py:558-570 | each iteration halves the bracket width |
| Calibration.IterateStaysInside | notebooks/examples/utils.py:558-570 | brackets shrink inside the initial one, so every midpoint tried lies in `[lbound, ubound]` |
| Calibration.TargetBelowBracketNotFound | notebooks/examples/utils.py:557-572 | with a non-increasing accountant and `eps(lbound) < target - tol`, the search returns `None` |
| Calibration.TargetAboveBracketNotFound | notebooks/examples/utils.py:557-572 | with a non-increasing accountant and `eps(ubound) > target + tol`, the search returns `None` |
| Metrics.Thresholds | notebooks/examples/utils.py:391-400 | one point gives `[0.5]`; otherwise threshold `i` is `i / (n - 1)`, so the `n` thresholds rise from 0 to 1 |
| Metrics.GetPosNeg | notebooks/examples/utils.py:385-421 | fails exactly for non-binary labels, a negative point count or mismatched lengths; for `n_points = 0` the counting loop is empty and the length mismatch is the ValueError of the first score call, `average_precision_score`; the scores' other failures are left out; otherwise four count vectors of length `n_points` |
| Metrics.ConfusionAddsUp | notebooks/examples/utils.py:391-412 | at every threshold `TP + FN` is the number of labels 1 and `FP + TN` the number of labels 0 |
| Metrics.CellsSplitLabel | notebooks/examples/utils.py:409-412 | the above and not-above counts of a label add up to its count |
| Metrics.PositivesFallAlongGrid | notebooks/examples/utils.py:400-412 | along the threshold grid TP and FP never grow |
| Metrics.PosNegErrors | notebooks/examples/utils.py:390-421 | each error case in the order the source meets them, as an if-and-only-if; the length mismatch comes from the counting masks for `n_points ≥ 1` and from `average_precision_score` for `n_points = 0` |
| Clients.KindFor | notebooks/examples/utils.py:58-85 | the client class for each mode (`lfa`, `local_pvi`, `param`, `dpsgd` and the two non-DP modes each to its own class); `dpsgd` with both sampling options is refused as user-level DP, and an unknown mode is refused |
| Clients.SetUpClients | notebooks/examples/utils.py:44-88 | one client per shard in shard order, each with its shard, the model, the initial factor and the configuration; an error only when there is a shard, and then exactly the dispatch's |
| Clients.SetUpErrors | notebooks/examples/utils.py:70-85 | with a shard, the factory raises user-level DP exactly for `dpsgd` with both options, and an unknown mode exactly outside the six names |
| Clients.InitClientsFromExisting | notebooks/examples/utils.py:92-112 | the migration fails exactly when there is a client and the new mode is not `dpsgd`, and even then the client configuration already carries the new mode; otherwise the server gets the new clients |
| Clients.MigrationCarriesState | notebooks/examples/utils.py:96-101 | each new client is a DP-SGD client keeping its predecessor's data, model, factor, log and update counter |
| Clients.MigrationUpdatesServer | notebooks/examples/utils.py:97-112 | the server takes the new mode and the client configuration's clipping bound and noise; nothing else changes |
| GlobalVi.ShouldStop | pvi/servers/global_vi.py:191-192 | `should_stop` holds exactly when the server has done `max_iterations` iterations; `Tick` returns `False` exactly then |
| GlobalVi.LoaderLength | pvi/servers/global_vi.py:86-94 | the number of minibatches per epoch is the ceiling of `N / batch_size`, or `N` without batching; an empty dataset is refused first, then a non-positive batch size, in the order the loader builds its samplers |
| GlobalVi.RunEpoch | pvi/servers/global_vi.py:131-158 | one epoch takes one optimiser step and counts one communication per minibatch |
| GlobalVi.Train | pvi/servers/global_vi.py:121-189 | the epoch loop adds `epochs` epochs and logs one `q` and one communication count per epoch, plus one training curve of `epochs` values; `print_epochs = 0` raises after the first epoch's minibatches |
| GlobalVi.Tick | pvi/servers/global_vi.py:56-189 | the full outcome table of `tick`: stopped servers change nothing, an inhomogeneous split raises before any change, and a completed tick adds one iteration and leaves `p` untouched |
| GlobalVi.CommunicationsStaySorted | pvi/servers/global_vi.py:133-177 | a non-decreasing communications log stays non-decreasing |
| GlobalVi.Init | pvi/servers/global_vi.py:18-31 | the constructor fails with no clients; otherwise the server holds the pool of all clients' data (see `PoolLength`, `PoolHoldsClient`), epochs are zero and `q` is `init_q` when given |
| GlobalVi.PoolLength | pvi/servers/global_vi.py:22-24 | the pooled dataset's length is the sum of the clients' lengths |
| GlobalVi.PoolHoldsClient | pvi/servers/global_vi.py:22-24 | client `i`'s data sits in the pool right after the data of clients `0 .. i-1` |
| RunConfig.ArgsError | notebooks/examples/dp_logistic_regression.py:60-64 | an unknown mode is refused first, then an unknown model |
| RunConfig.ArgsAccepted | notebooks/examples/dp_logistic_regression.py:60-93 | the arguments accepted, as an if-and-only-if over mode, model and the two sampling options |
| RunConfig.DpsgdNeedsASamplingOption | notebooks/examples/dp_logistic_regression.py:69-78 | `dpsgd` and `param_fixed` are refused exactly when neither option is set |
| RunConfig.LocalModesRefuseBothOptions | notebooks/examples/dp_logistic_regression.py:80-86 | `lfa`, `local_pvi` and `param` are refused exactly when both options are set |
| RunConfig.ServerModeRefusedLate | notebooks/examples/dp_logistic_regression.py:60-93 | the mode `server` passes the first check and is refused by the fall-through branch |
| RunConfig.LrSchedule | notebooks/examples/dp_logistic_regression.py:128-138 | the scheduler stays on exactly when asked for with more than five global updates, with gamma 0.5 and two milestones; otherwise no parameters |
| RunConfig.MilestonesInsideRun | notebooks/examples/dp_logistic_regression.py:128-131 | the milestones are `n//2` and `n-2`, strictly increasing and strictly inside the run |
| RunConfig.ChooseServer | notebooks/examples/dp_logistic_regression.py:200-231 | each model gets its own server class (`bcm_same`, `bcm_split`, `global_vi`); `pvi` gets the synchronous server for `synchronous` and the sequential one for `sequential`; only `pvi` with any other server is refused, as an unknown server |
| RunConfig.SetUpRun | notebooks/examples/dp_logistic_regression.py:60-231 | an argument error is the result; a successful set-up has one client per shard |
| RunConfig.RunStartsFromStandardNormal | notebooks/examples/dp_logistic_regression.py:171-183 | the prior has loc 0 and scale 1 in all `features + 1` coordinates; the initial factor is all zeros of that dimension, has no standard form, and every client starts from it |
| RunConfig.PriorNaturalParameters | notebooks/examples/dp_logistic_regression.py:171-175 | the prior's natural parameters are 0 and -1/2 in every coordinate |
| RunConfig.ServerSettingsByModel | notebooks/examples/dp_logistic_regression.py:186-231 | committee machines run one iteration; global VI runs with one client, no batching, printing every epoch and a homogeneous split; pvi keeps `n_global_updates` and runs the synchronous server exactly for `synchronous` and the sequential one exactly for `sequential` |
| RunConfig.ParamFixedRefusedByFactory | notebooks/examples/dp_logistic_regression.py:69-183 | `param_fixed` passes the argument checks and fails in the client factory whenever there is data |
| RunConfig.UnknownServerRefused | notebooks/examples/dp_logistic_regression.py:183-231 | a pvi run with an unknown server fails; the server error shows only when the client factory succeeded |

## Left out

- Everything numeric that torch does: ELBO, KL, expected log-likelihood, Adam and the
  learning-rate schedulers. One optimiser step and a minibatch's KL and
  log-likelihood are function parameters of `GlobalVi.Tick`.
- The data loader's shuffling and batch contents. Only the number of minibatches is modelled.
- The Fourier accountant, an external library. It is the parameter `eps` of the
  bisection, and monotonicity is a hypothesis only where a lemma states it.
- The exponential function and the logarithm. `MultinomialDistribution._nat_from_std`
  takes a logarithm and is not modelled. `exp` in `_std_from_nat` is a parameter
  of which only positivity is used.
- The square root in the Gaussian maps. The model works in variance.
- Floating-point rounding. All arithmetic is exact over reals.
- ExpFamily.GaussianNatFromStd: a zero scale is excluded by `ValidGaussianStd`. The source
  divides by it and yields inf or NaN without raising.
- ExpFamily.GaussianStdFromNat: `np2 = 0` is excluded by `HasGaussianStdForm`. The source
  divides by it and yields inf or NaN without raising.
- ExpFamily.GammaStdFromNat: `np2 = 0` is excluded by `GammaNatConvertible`. The source
  divides by it and yields inf or NaN without raising.
- ExpFamily.GammaNatFromStd: a zero rate is excluded by `GammaStdConvertible`. The source
  divides by it and yields inf or NaN without raising.
- The unconstrained-parameter maps (`_unc_from_std`, `_std_from_unc`), every `log_a`, and
  `MultivariateGaussianDistribution`. They need exp, log or matrix algebra.
- pvi/distributions/hypers.py. It only delegates to classes that are not part of this model.
- Dataset I/O: `standard_client_split`, `get_nth_split` and the file reads. The shards
  are a parameter of `RunConfig.SetUpRun`.
- Saving and restoring the global random state in `generate_clients_data`. The draws are the parameter `rng`.
- The scikit-learn scores in `get_posneg` and the accuracy and log-likelihood helpers.
- Metrics.GetPosNeg: dropping the scikit-learn scores also drops their failures. `f1_score`
  with its default binary averaging refuses two labels other than `{0, 1}`, because
  together with the boolean predictions they make three classes. The model returns the
  counts for such labels. The one score failure it keeps is the length mismatch at
  `n_points = 0`, where the counting loop is empty and `average_precision_score` raises.
- Logging, progress bars, plotting, argument parsing and seeding.
- The client classes and the base `Server` constructor (pvi/clients, pvi/servers/base.py):
  - they are not part of this model;
  - a client is the record the factory hands to a constructor;
  - the base constructor's state is a parameter of `GlobalVi.Init`.
- The DP client mechanisms (clipping, noise) and the invariant that the global
  posterior is the prior times the client factors. Their code is not part of this model.
- The server object built in `main`:
  - the example imports its global VI server from pvi/servers/dpsgd_global_vi.py, which is not part of this model;
  - `RunConfig.SetUpRun` stops at the chosen server kind and its settings.
- Configuration keys the model does not read (optimiser, scheduler, ELBO samples, norms
  tracking, ...). A missing key (KeyError) is not modelled.
- The `n_points == 1` branch of `get_posneg` compares with `> 0.5`, the same as a grid of
  the single threshold 0.5. `Metrics.Thresholds` folds the two branches into one.
- GlobalVi.Tick: the per-epoch ELBO, KL and log-likelihood values are averaged as in the
  source, but the contract states only how many values each curve gets, since they
  depend on the unconstrained minibatch losses.
- Partition.ShardComposition: the bound on big shards is stated only for a
  non-negative `big_client_size`. With a negative one, Python's slicing drops examples
  from the end instead. The model slices that way but states no bound for it.

## Findings

| source | as written | input that shows it | evidently intended | confidence | as-written member | corrected member |
|---|---|---|---|---|---|---|
| notebooks/examples/utils.py:557-572 | with `max_iters <= 0` the loop never runs, and the final log line reads `cur`, which was never assigned, so the call raises UnboundLocalError | `max_iters = 0`, any bracket and accountant | report non-convergence by returning `None`, as for a search that runs out of iterations | not executed | Calibration.BinSearchSigmaAsWritten, Calibration.NoIterationsRaises | Calibration.BinSearchSigma |

=== FILE: calibration.dfy ===
/** Noise calibration by bisection: `bin_search_sigma` of
    notebooks/examples/utils.py.

    The privacy accountant that maps a noise level `sigma` to the privacy
    loss `epsilon` (the Fourier accountant, with its `delta`, `q`, `ncomp`,
    `nx` and `L` arguments fixed) is a parameter `eps` of the model; nothing
    is assumed about it unless a lemma says so.
 */
module Calibration {
  import opened Outcomes

  /** The search interval `[lbound, ubound]` of one iteration. */
  datatype Bracket = Bracket(lo: real, hi: real)

  /** `cur = (ubound + lbound) / 2`. */
  function Mid(b: Bracket): real
  {
    (b.hi + b.lo) / 2.0
  }

  /** `np.abs(eps - target_eps) <= tol`. */
  predicate Within(e: real, target: real, tol: real)
  {
    Abs(e - target) <= tol
  }

  /** The interval after `k` iterations that did not return: a loss below
      the target moves the upper end to the midpoint, any other loss moves
      the lower end. */
  function Iterate(eps: real -> real, target: real, b0: Bracket, k: nat): Bracket
  {
    if k == 0 then b0
    else
      var p := Iterate(eps, target, b0, k - 1);
      if eps(Mid(p)) < target then Bracket(p.lo, Mid(p)) else Bracket(Mid(p), p.hi)
  }

  /** The midpoint tried by iteration `k`. */
  function Probe(eps: real -> real, target: real, b0: Bracket, k: nat): real
  {
    Mid(Iterate(eps, target, b0, k))
  }

  /** Iteration `k` returns: its midpoint is within `tol` of the target. */
  predicate Hits(eps: real -> real, target: real, tol: real, b0: Bracket, k: nat)
  {
    Within(eps(Probe(eps, target, b0, k)), target, tol)
  }

  /** The search as a recursive definition: the iterations `from`,
      `from + 1`, ... below `maxIters` are tried in turn and the first
      midpoint within `tol` is returned; `None` when none is. */
  function Search(eps: real -> real, target: real, tol: real, b0: Bracket, from: nat, maxIters: int): (r: Option<real>)
    ensures r.Some? ==> exists k :: from <= k < maxIters && r.value == Probe(eps, target, b0, k)
    decreases maxIters - from
  {
    if maxIters <= from then None
    else if Hits(eps, target, tol, b0, from) then Some(Probe(eps, target, b0, from))
    else Search(eps, target, tol, b0, from + 1, maxIters)
  }

  /** `Search` finds the first hit at or after `from`, and nothing when
      there is none. */
  lemma {:induction false} SearchFindsFirstHit(eps: real -> real, target: real, tol: real, b0: Bracket,
                                               from: nat, maxIters: int)
    ensures var r := Search(eps, target, tol, b0, from, maxIters);
      && (r.None? <==> forall k :: from <= k < maxIters ==> !Hits(eps, target, tol, b0, k))
      && (r.Some? ==> exists k :: (from <= k < maxIters && r.value == Probe(eps, target, b0, k)
                                    && Hits(eps, target, tol, b0, k)
                                    && forall j :: from <= j < k ==> !Hits(eps, target, tol, b0, j)))
    decreases maxIters - from
  {
    var r := Search(eps, target, tol, b0, from, maxIters);
    if maxIters > from {
      if Hits(eps, target, tol, b0, from) {
        assert r.value == Probe(eps, target, b0, from);
      } else {
        SearchFindsFirstHit(eps, target, tol, b0, from + 1, maxIters);
        assert r == Search(eps, target, tol, b0, from + 1, maxIters);
        if r.Some? {
          var k :| from + 1 <= k < maxIters && r.value == Probe(eps, target, b0, k)
                   && Hits(eps, target, tol, b0, k)
                   && forall j :: from + 1 <= j < k ==> !Hits(eps, target, tol, b0, j);
          assert forall j :: from <= j < k ==> !Hits(eps, target, tol, b0, j);
        }
      }
    }
  }

  /** `bin_search_sigma(target_eps, ..., lbound, ubound, tol, max_iters)` with
      the evidently intended result when no iteration runs: `None`, as for
      any other search that does not converge. */
  method BinSearchSigma(eps: real -> real, target: real, lbound: real, ubound: real, tol: real, maxIters: int)
    returns (r: Option<real>)
    ensures r == Search(eps, target, tol, Bracket(lbound, ubound), 0, maxIters)
    ensures r.None? <==> forall k :: 0 <= k < maxIters ==> !Hits(eps, target, tol, Bracket(lbound, ubound), k)
    ensures r.Some? ==> exists k :: (0 <= k < maxIters
                                    && r.value == Probe(eps, target, Bracket(lbound, ubound), k)
                                    && Hits(eps, target, tol, Bracket(lbound, ubound), k)
                                    && forall j :: 0 <= j < k ==> !Hits(eps, target, tol, Bracket(lbound, ubound), j))
  {
    var lo, hi := lbound, ubound;
    var i := 0;
    while i < maxIters
      invariant 0 <= i
      invariant i <= maxIters || maxIters <= 0
      invariant Bracket(lo, hi) == Iterate(eps, target, Bracket(lbound, ubound), i)
      invariant Search(eps, target, tol, Bracket(lbound, ubound), 0, maxIters)
             == Search(eps, target, tol, Bracket(lbound, ubound), i, maxIters)
      decreases maxIters - i
    {
      var cur := (hi + lo) / 2.0;
      var e := eps(cur);
      if Abs(e - target) <= tol {
        SearchFindsFirstHit(eps, target, tol, Bracket(lbound, ubound), 0, maxIters);
        return Some(cur);
      }
      if e < target {
        hi := cur;
      } else {
        lo := cur;
      }
      i := i + 1;
    }
    SearchFindsFirstHit(eps, target, tol, Bracket(lbound, ubound), 0, maxIters);
    return None;
  }

  datatype CalibrationError = UnboundLocal  // `cur` read by the final log line before any assignment

  /** `bin_search_sigma` as written. `cur` is a local that Python binds only
      inside the loop body, so it is `None` here until the first iteration
      assigns it; the final log line reads it, which fails while it is still
      unbound. */
  method BinSearchSigmaAsWritten(eps: real -> real, target: real, lbound: real, ubound: real, tol: real,
                                 maxIters: int)
    returns (r: Result<Option<real>, CalibrationError>)
    ensures maxIters > 0 ==> r == Success(Search(eps, target, tol, Bracket(lbound, ubound), 0, maxIters))
    ensures maxIters <= 0 ==> r == Failure(UnboundLocal)
  {
    var lo, hi := lbound, ubound;
    var cur: Option<real> := None;
    var i := 0;
    while i < maxIters
      invariant 0 <= i
      invariant i <= maxIters || i == 0
      invariant cur.Some? <==> i > 0
      invariant Bracket(lo, hi) == Iterate(eps, target, Bracket(lbound, ubound), i)
      invariant Search(eps, target, tol, Bracket(lbound, ubound), 0, maxIters)
             == Search(eps, target, tol, Bracket(lbound, ubound), i, maxIters)
      decreases maxIters - i
    {
      var c := (hi + lo) / 2.0;
      cur := Some(c);
      var e := eps(c);
      if Abs(e - target) <= tol {
        return Success(Some(c));
      }
      if e < target {
        hi := c;
      } else {
        lo := c;
      }
      i := i + 1;
    }
    if cur.None? {
      return Failure(UnboundLocal);
    }
    assert i == maxIters;
    assert Search(eps, target, tol, Bracket(lbound, ubound), i, maxIters) == None;
    return Success(None);
  }

  /** With `max_iters = 0` the search as written raises where the corrected
      search reports that it did not converge. */
  method NoIterationsRaises(eps: real -> real, target: real, lbound: real, ubound: real, tol: real)
    returns (asWritten: Result<Option<real>, CalibrationError>, corrected: Option<real>)
    ensures asWritten == Failure(UnboundLocal)
    ensures corrected == None
  {
    asWritten := BinSearchSigmaAsWritten(eps, target, lbound, ubound, tol, 0);
    corrected := BinSearchSigma(eps, target, lbound, ubound, tol, 0);
  }

  /** A bracket whose ends straddle the target: the loss at the upper end is
      below it, the loss at the lower end is not. */
  predicate Straddles(eps: real -> real, target: real, b: Bracket)
  {
    eps(b.hi) < target <= eps(b.lo)
  }

  /** Every iteration keeps a straddling bracket straddling, whatever the
      accountant. */
  lemma {:induction false} IterateKeepsStraddle(eps: real -> real, target: real, b0: Bracket, k: nat)
    requires Straddles(eps, target, b0)
    ensures Straddles(eps, target, Iterate(eps, target, b0, k))
  {
    if k > 0 {
      IterateKeepsStraddle(eps, target, b0, k - 1);
    }
  }

  function Pow2(k: nat): (p: real)
    ensures p >= 1.0
  {
    if k == 0 then 1.0 else 2.0 * Pow2(k - 1)
  }

  /** Each iteration halves the interval. */
  lemma {:induction false} IterateHalves(eps: real -> real, target: real, b0: Bracket, k: nat)
    ensures var b := Iterate(eps, target, b0, k);
      (b.hi - b.lo) * Pow2(k) == b0.hi - b0.lo
  {
    if k > 0 {
      IterateHalves(eps, target, b0, k - 1);
      var p := Iterate(eps, target, b0, k - 1);
      var b := Iterate(eps, target, b0, k);
      assert b.hi - b.lo == (p.hi - p.lo) / 2.0;
      assert (b.hi - b.lo) * Pow2(k) == (p.hi - p.lo) * Pow2(k - 1);
    }
  }

  /** For `lbound <= ubound` the interval only shrinks inside the initial
      one, so every midpoint tried lies in `[lbound, ubound]`. */
  lemma {:induction false} IterateStaysInside(eps: real -> real, target: real, b0: Bracket, k: nat)
    requires b0.lo <= b0.hi
    ensures var b := Iterate(eps, target, b0, k);
      b0.lo <= b.lo <= b.hi <= b0.hi && b0.lo <= Probe(eps, target, b0, k) <= b0.hi
  {
    if k > 0 {
      IterateStaysInside(eps, target, b0, k - 1);
    }
  }

  /** The loss does not grow with the noise level. */
  ghost predicate NonIncreasing(eps: real -> real)
  {
    forall x: real, y: real :: x <= y ==> eps(y) <= eps(x)
  }

  /** With a loss that does not grow with the noise, a search whose lower
      end already gives a loss more than `tol` below the target tries only
      midpoints that miss it too, so it returns nothing: it never reports
      the boundary instead. */
  lemma TargetBelowBracketNotFound(eps: real -> real, target: real, lbound: real, ubound: real, tol: real,
                                   maxIters: int)
    requires NonIncreasing(eps) && lbound <= ubound
    requires eps(lbound) < target - tol
    ensures Search(eps, target, tol, Bracket(lbound, ubound), 0, maxIters) == None
  {
    var b0 := Bracket(lbound, ubound);
    forall k | 0 <= k < maxIters
      ensures !Hits(eps, target, tol, b0, k)
    {
      IterateStaysInside(eps, target, b0, k);
    }
    SearchFindsFirstHit(eps, target, tol, b0, 0, maxIters);
  }

  /** Symmetrically, a search whose upper end still gives a loss more than
      `tol` above the target returns nothing. */
  lemma TargetAboveBracketNotFound(eps: real -> real, target: real, lbound: real, ubound: real, tol: real,
                                   maxIters: int)
    requires NonIncreasing(eps) && lbound <= ubound
    requires eps(ubound) > target + tol
    ensures Search(eps, target, tol, Bracket(lbound, ubound), 0, maxIters) == None
  {
    var b0 := Bracket(lbound, ubound);
    forall k | 0 <= k < maxIters
      ensures !Hits(eps, target, tol, b0, k)
    {
      IterateStaysInside(eps, target, b0, k);
    }
    SearchFindsFirstHit(eps, target, tol, b0, 0, maxIters);
  }
}

=== FILE: clients.dfy ===
/** The client factory `set_up_clients` and the client migration
    `init_clients_from_existing` of notebooks/examples/utils.py.

    The client classes themselves (`Client`, `DPSGD_Client`, `LFA_Client`,
    `Local_PVI_Client`, `Param_DP_Client`) are not part of this model: a
    client is the record of what the factory hands to a constructor, plus
    the log and update counter that the migration copies over. `None` in
    those two fields stands for whatever the constructor sets up itself.
 */
module Clients {
  import opened Outcomes
  import opened ExpFamily

  /** Which client class the factory instantiates. */
  datatype ClientKind = LfaClient | LocalPviClient | ParamDpClient | DpsgdClient | BaseClient

  /** The keys of the client configuration the migration reads or writes;
      every other key is carried in `rest`. */
  datatype ClientConfig<E> = ClientConfig(dpMode: string, dpC: real, dpSigma: real, rest: E)

  /** A client: its class, its data shard, the shared model, its factor `t`
      (a mean-field Gaussian factor given by natural parameters), its
      configuration, its log and its update counter. */
  datatype Client<D, M, C, L> = Client(kind: ClientKind, data: D, model: M, t: GaussianNat, config: C,
                                       log: Option<L>, updateCounter: Option<int>)

  datatype SetupError =
    | UserLevelDp   // dpsgd with both a batch size and a sampling fraction: NotImplementedError
    | UnknownMode   // any other mode outside the six names: ValueError

  /** The six modes the factory knows. */
  const ClientModes: set<string> := {"lfa", "local_pvi", "param", "dpsgd", "nondp_epochs", "nondp_batches"}

  /** The dispatch on `dp_mode` made for every shard. */
  function KindFor(dpMode: string, batchSize: Option<int>, q: Option<real>): (r: Result<ClientKind, SetupError>)
    ensures r.Success? <==> dpMode in ClientModes && !(dpMode == "dpsgd" && batchSize.Some? && q.Some?)
    ensures r == Failure(UserLevelDp) <==> dpMode == "dpsgd" && batchSize.Some? && q.Some?
    ensures dpMode == "lfa" ==> r == Success(LfaClient)
    ensures dpMode == "local_pvi" ==> r == Success(LocalPviClient)
    ensures dpMode == "param" ==> r == Success(ParamDpClient)
    ensures r.Success? && r.value == DpsgdClient <==> r.Success? && dpMode == "dpsgd"
    ensures r.Success? && r.value == BaseClient <==> dpMode in {"nondp_epochs", "nondp_batches"}
  {
    if dpMode == "lfa" then Success(LfaClient)
    else if dpMode == "local_pvi" then Success(LocalPviClient)
    else if dpMode == "param" then Success(ParamDpClient)
    else if dpMode == "dpsgd" then
      if batchSize.Some? && q.Some? then Failure(UserLevelDp) else Success(DpsgdClient)
    else if dpMode == "nondp_epochs" || dpMode == "nondp_batches" then Success(BaseClient)
    else Failure(UnknownMode)
  }

  /** `set_up_clients(model, client_data, init_nat_params, config, dp_mode,
      batch_size, sampling_frac_q)`: one client per shard, in shard order,
      each with its own factor holding `init_nat_params`. The mode is only
      examined inside the loop, so no shard means no error. */
  function SetUpClients<D, M, C, L>(model: M, shards: seq<D>, initNat: GaussianNat, config: C, dpMode: string,
                                    batchSize: Option<int>, q: Option<real>): (r: Result<seq<Client<D, M, C, L>>, SetupError>)
    ensures |shards| == 0 ==> r == Success([])
    ensures |shards| > 0 ==> (r.Failure? <==> KindFor(dpMode, batchSize, q).Failure?)
    ensures r.Failure? ==> r.error == KindFor(dpMode, batchSize, q).error
    ensures r.Success? ==> |r.value| == |shards|
    ensures r.Success? ==> forall i :: 0 <= i < |shards| ==>
      && r.value[i].data == shards[i]
      && r.value[i].t == initNat
      && r.value[i].model == model
      && r.value[i].config == config
      && r.value[i].kind == KindFor(dpMode, batchSize, q).value
  {
    if |shards| == 0 then Success([])
    else
      var kind :- KindFor(dpMode, batchSize, q);
      Success(seq(|shards|, i requires 0 <= i < |shards| => Client(kind, shards[i], model, initNat, config, None, None)))
  }

  /** The error cases of the factory, for at least one shard. */
  lemma SetUpErrors<D, M, C, L>(model: M, shards: seq<D>, initNat: GaussianNat, config: C, dpMode: string,
                                batchSize: Option<int>, q: Option<real>)
    requires |shards| > 0
    ensures var r: Result<seq<Client<D, M, C, L>>, SetupError> := SetUpClients(model, shards, initNat, config, dpMode, batchSize, q);
      && (r == Failure(UserLevelDp) <==> dpMode == "dpsgd" && batchSize.Some? && q.Some?)
      && (r == Failure(UnknownMode) <==> dpMode !in ClientModes)
  {
  }

  /** The server fields the migration touches: its clients and the three
      privacy keys of its configuration; every other key is in `rest`. */
  datatype ServerConfig<F> = ServerConfig(dpMode: string, dpC: real, dpSigma: real, rest: F)
  datatype ServerView<D, M, C, L, F> = ServerView(clients: seq<Client<D, M, C, L>>, config: ServerConfig<F>)

  /** The migration either completes, giving the new clients, the updated
      client configuration and the updated server, or raises
      NotImplementedError; the client configuration is updated in place
      before the raise, so the caller sees the change in both cases. */
  datatype Migration<D, M, E, L, F> =
    | Migrated(clients: seq<Client<D, M, ClientConfig<E>, L>>, clientConfig: ClientConfig<E>,
               server: ServerView<D, M, ClientConfig<E>, L, F>)
    | OnlyDpsgd(clientConfig: ClientConfig<E>)

  /** `init_clients_from_existing(clients, server, client_config, new_dp_mode)`. */
  function InitClientsFromExisting<D, M, E, L, F>(clients: seq<Client<D, M, ClientConfig<E>, L>>,
                                                  server: ServerView<D, M, ClientConfig<E>, L, F>,
                                                  clientConfig: ClientConfig<E>, newMode: string): (r: Migration<D, M, E, L, F>)
    ensures r.OnlyDpsgd? <==> |clients| > 0 && newMode != "dpsgd"
    ensures r.Migrated? ==> |r.clients| == |clients| && r.server.clients == r.clients
    ensures r.OnlyDpsgd? ==> r.clientConfig == clientConfig.(dpMode := newMode)
  {
    var config := if |clients| > 0 then clientConfig.(dpMode := newMode) else clientConfig;
    if |clients| > 0 && newMode != "dpsgd" then OnlyDpsgd(config)
    else
      var moved := seq(|clients|, i requires 0 <= i < |clients| =>
        Client(DpsgdClient, clients[i].data, clients[i].model, clients[i].t, config,
               clients[i].log, clients[i].updateCounter));
      Migrated(moved, config,
               ServerView(moved, server.config.(dpMode := newMode, dpC := config.dpC, dpSigma := config.dpSigma)))
  }

  /** Every migrated client is a DP-SGD client that keeps the data, model,
      factor, log and update counter of the client it replaces and uses the
      client configuration with the new mode. */
  lemma MigrationCarriesState<D, M, E, L, F>(clients: seq<Client<D, M, ClientConfig<E>, L>>,
                                             server: ServerView<D, M, ClientConfig<E>, L, F>,
                                             clientConfig: ClientConfig<E>, newMode: string, i: int)
    requires InitClientsFromExisting(clients, server, clientConfig, newMode).Migrated?
    requires 0 <= i < |clients|
    ensures var r := InitClientsFromExisting(clients, server, clientConfig, newMode);
      var was := clients[i];
      var now := r.clients[i];
      && now.kind == DpsgdClient
      && now.data == was.data && now.model == was.model && now.t == was.t
      && now.log == was.log && now.updateCounter == was.updateCounter
      && now.config == r.clientConfig && now.config.dpMode == newMode == "dpsgd"
  {
  }

  /** The server ends up with the new mode and the client configuration's
      clipping bound and noise level; nothing else in its configuration
      changes, and the client configuration changes only in its mode. */
  lemma MigrationUpdatesServer<D, M, E, L, F>(clients: seq<Client<D, M, ClientConfig<E>, L>>,
                                              server: ServerView<D, M, ClientConfig<E>, L, F>,
                                              clientConfig: ClientConfig<E>, newMode: string)
    requires InitClientsFromExisting(clients, server, clientConfig, newMode).Migrated?
    ensures var r := InitClientsFromExisting(clients, server, clientConfig, newMode);
      && r.server.config.dpMode == newMode
      && r.server.config.dpC == clientConfig.dpC
      && r.server.config.dpSigma == clientConfig.dpSigma
      && r.server.config.rest == server.config.rest
      && r.clientConfig.dpC == clientConfig.dpC && r.clientConfig.dpSigma == clientConfig.dpSigma
      && r.clientConfig.rest == clientConfig.rest
      && (|clients| > 0 ==> r.clientConfig.dpMode == newMode)
      && (|clients| == 0 ==> r.clientConfig == clientConfig && r.clients == [])
  {
  }
}

=== FILE: exp_family.dfy ===
/** Closed-form parameter maps of the exponential-family distributions in
    pvi/distributions/exponential_family_distributions.py.

    Every family here is mean-field: a vector of independent coordinates, so
    each map works coordinate by coordinate on `seq<real>` vectors. Dafny's
    `real` is exact, so the round trips below hold exactly where the source
    only achieves them up to floating-point error.

    The mean-field Gaussian is described by its variance (scale squared)
    rather than by its scale: the source takes a square root to produce the
    scale, and the variance is what that root is taken of. A negative
    "variance" from `GaussianStdFromNat` stands for the NaN scale that the
    source computes from the root of a negative number.

    `LogNormalDistribution` inherits all of these maps from
    `MeanFieldGaussianDistribution` unchanged, so the Gaussian members below
    are its maps as well.
 */
module ExpFamily {
  import opened Outcomes

  // ---------------------------------------------------------------------------
  // Mean-field Gaussian
  // ---------------------------------------------------------------------------

  /** Standard parameters: `variance[i]` is `scale[i] ** 2`. */
  datatype GaussianStd = GaussianStd(loc: seq<real>, variance: seq<real>)

  /** Natural parameters: `np1 = loc / scale^2`, `np2 = -1 / (2 scale^2)`. */
  datatype GaussianNat = GaussianNat(np1: seq<real>, np2: seq<real>)

  /** Mean parameters: first and second moments `E[x]`, `E[x^2]`. */
  datatype GaussianMean = GaussianMean(m1: seq<real>, m2: seq<real>)

  /** A standard-parameter vector with a non-zero scale in every coordinate,
      so that `scale ** -2` is finite. */
  predicate ValidGaussianStd(s: GaussianStd)
  {
    && |s.loc| == |s.variance|
    && forall i :: 0 <= i < |s.variance| ==> s.variance[i] > 0.0
  }

  predicate GaussianNatShaped(n: GaussianNat)
  {
    |n.np1| == |n.np2|
  }

  /** The natural parameters from which `_std_from_nat` divides by no zero:
      every `np2` coordinate is non-zero. */
  predicate HasGaussianStdForm(n: GaussianNat)
  {
    && GaussianNatShaped(n)
    && forall i :: 0 <= i < |n.np2| ==> n.np2[i] != 0.0
  }

  /** `MeanFieldGaussianDistribution._nat_from_std`. */
  function GaussianNatFromStd(s: GaussianStd): (n: GaussianNat)
    requires ValidGaussianStd(s)
    ensures GaussianNatShaped(n) && |n.np1| == |s.loc|
    ensures forall i :: 0 <= i < |n.np2| ==> n.np2[i] < 0.0
    ensures forall i :: 0 <= i < |n.np1| ==> n.np1[i] * s.variance[i] == s.loc[i]
    ensures forall i :: 0 <= i < |n.np2| ==> -2.0 * n.np2[i] * s.variance[i] == 1.0
  {
    GaussianNat(
      seq(|s.loc|, i requires 0 <= i < |s.loc| => s.loc[i] / s.variance[i]),
      seq(|s.loc|, i requires 0 <= i < |s.loc| => -0.5 / s.variance[i]))
  }

  /** `MeanFieldGaussianDistribution._std_from_nat`; `enforcePosVar` is the
      class attribute that selects the absolute-value branch. */
  function GaussianStdFromNat(n: GaussianNat, enforcePosVar: bool): (s: GaussianStd)
    requires HasGaussianStdForm(n)
    ensures |s.loc| == |s.variance| == |n.np1|
    ensures forall i :: 0 <= i < |s.loc| ==> s.loc[i] * n.np2[i] == -0.5 * n.np1[i]
    ensures enforcePosVar ==> ValidGaussianStd(s)
    ensures !enforcePosVar ==>
      forall i :: 0 <= i < |s.variance| ==> -2.0 * n.np2[i] * s.variance[i] == 1.0
    ensures !enforcePosVar ==>
      forall i :: 0 <= i < |s.variance| ==> (s.variance[i] > 0.0 <==> n.np2[i] < 0.0)
  {
    var loc := seq(|n.np1|, i requires 0 <= i < |n.np1| => -0.5 * n.np1[i] / n.np2[i]);
    if enforcePosVar then
      GaussianStd(loc, seq(|n.np1|, i requires 0 <= i < |n.np1| => -0.5 / -Abs(n.np2[i])))
    else
      GaussianStd(loc, seq(|n.np1|, i requires 0 <= i < |n.np1| => -0.5 / n.np2[i]))
  }

  /** `MeanFieldGaussianDistribution._mean_from_std`. */
  function GaussianMeanFromStd(s: GaussianStd): (m: GaussianMean)
    requires |s.loc| == |s.variance|
    ensures m.m1 == s.loc && |m.m2| == |s.variance|
    ensures forall i :: 0 <= i < |m.m2| ==> m.m2[i] - m.m1[i] * m.m1[i] == s.variance[i]
  {
    GaussianMean(s.loc,
                 seq(|s.loc|, i requires 0 <= i < |s.loc| => s.variance[i] + s.loc[i] * s.loc[i]))
  }

  /** Standard -> natural -> standard is the identity (plain branch). */
  lemma GaussianStdRoundTrip(s: GaussianStd)
    requires ValidGaussianStd(s)
    ensures HasGaussianStdForm(GaussianNatFromStd(s))
    ensures GaussianStdFromNat(GaussianNatFromStd(s), false) == s
  {
    var n := GaussianNatFromStd(s);
    var r := GaussianStdFromNat(n, false);
    forall i | 0 <= i < |s.loc|
      ensures r.loc[i] == s.loc[i] && r.variance[i] == s.variance[i]
    {
      ScalarGaussianRoundTrip(s.loc[i], s.variance[i], n.np1[i], n.np2[i]);
    }
  }

  lemma ScalarGaussianRoundTrip(loc: real, v: real, np1: real, np2: real)
    requires v > 0.0
    requires np1 == loc / v && np2 == -0.5 / v
    ensures np2 != 0.0
    ensures -0.5 * np1 / np2 == loc
    ensures -0.5 / np2 == v
  {
    assert np2 * v == -0.5;
    assert np1 * v == loc;
    assert -0.5 * np1 == loc * np2;
  }

  /** Natural -> standard -> natural is the identity whenever every `np2`
      coordinate is negative (a proper Gaussian). */
  lemma GaussianNatRoundTrip(n: GaussianNat)
    requires GaussianNatShaped(n)
    requires forall i :: 0 <= i < |n.np2| ==> n.np2[i] < 0.0
    ensures ValidGaussianStd(GaussianStdFromNat(n, false))
    ensures GaussianNatFromStd(GaussianStdFromNat(n, false)) == n
  {
    var s := GaussianStdFromNat(n, false);
    var r := GaussianNatFromStd(s);
    forall i | 0 <= i < |n.np1|
      ensures r.np1[i] == n.np1[i] && r.np2[i] == n.np2[i]
    {
      ScalarGaussianNatRoundTrip(n.np1[i], n.np2[i], s.loc[i], s.variance[i]);
    }
  }

  lemma ScalarGaussianNatRoundTrip(np1: real, np2: real, loc: real, v: real)
    requires np2 < 0.0
    requires loc == -0.5 * np1 / np2 && v == -0.5 / np2
    ensures v > 0.0
    ensures loc / v == np1
    ensures -0.5 / v == np2
  {
    assert v * np2 == -0.5;
    assert loc * np2 == -0.5 * np1;
  }

  /** With `enforce_pos_var` the recovered variance is `0.5 / |np2|`, positive
      for every non-zero `np2`, and both branches agree whenever `np2 < 0`. */
  lemma EnforcePosVarAgreesOnProperGaussians(n: GaussianNat)
    requires HasGaussianStdForm(n)
    ensures forall i :: 0 <= i < |n.np2| ==>
      GaussianStdFromNat(n, true).variance[i] == 0.5 / Abs(n.np2[i])
    ensures (forall i :: 0 <= i < |n.np2| ==> n.np2[i] < 0.0) ==>
      GaussianStdFromNat(n, true) == GaussianStdFromNat(n, false)
  {
    var e := GaussianStdFromNat(n, true);
    var p := GaussianStdFromNat(n, false);
    if forall i :: 0 <= i < |n.np2| ==> n.np2[i] < 0.0 {
      forall i | 0 <= i < |n.np2|
        ensures e.variance[i] == p.variance[i]
      {
        assert Abs(n.np2[i]) == -n.np2[i];
      }
    }
  }

  /** The neutral factor: all natural parameters zero. */
  function ZeroGaussianNat(d: nat): (n: GaussianNat)
    ensures GaussianNatShaped(n) && |n.np1| == d
    ensures forall i :: 0 <= i < d ==> n.np1[i] == 0.0 && n.np2[i] == 0.0
  {
    GaussianNat(seq(d, _ => 0.0), seq(d, _ => 0.0))
  }

  /** The all-zero natural parameter vector has no standard-parameter form:
      converting it would divide by `np2 = 0`. */
  lemma ZeroFactorHasNoStdForm(d: nat)
    requires d > 0
    ensures !HasGaussianStdForm(ZeroGaussianNat(d))
  {
    assert ZeroGaussianNat(d).np2[0] == 0.0;
  }

  /** Mean parameters recover the standard parameters: `m1 = loc` and
      `m2 - m1^2 = scale^2`. */
  lemma GaussianMeanDeterminesStd(s: GaussianStd, t: GaussianStd)
    requires |s.loc| == |s.variance| && |t.loc| == |t.variance|
    requires GaussianMeanFromStd(s) == GaussianMeanFromStd(t)
    ensures s == t
  {
    var m := GaussianMeanFromStd(s);
    forall i | 0 <= i < |s.variance|
      ensures s.variance[i] == t.variance[i]
    {
      assert s.variance[i] == m.m2[i] - m.m1[i] * m.m1[i];
    }
  }

  // ---------------------------------------------------------------------------
  // Dirichlet
  // ---------------------------------------------------------------------------

  datatype DirichletStd = DirichletStd(concentration: seq<real>)
  datatype DirichletNat = DirichletNat(np1: seq<real>)

  /** `DirichletDistribution._std_from_nat`. */
  function DirichletStdFromNat(n: DirichletNat): (s: DirichletStd)
    ensures |s.concentration| == |n.np1|
    ensures forall i :: 0 <= i < |n.np1| ==> (s.concentration[i] > 0.0 <==> n.np1[i] > -1.0)
  {
    DirichletStd(seq(|n.np1|, i requires 0 <= i < |n.np1| => n.np1[i] + 1.0))
  }

  /** `DirichletDistribution._nat_from_std`; undone exactly by
      `DirichletStdFromNat`. */
  function DirichletNatFromStd(s: DirichletStd): (n: DirichletNat)
    ensures DirichletStdFromNat(n) == s
  {
    DirichletNat(seq(|s.concentration|,
                     i requires 0 <= i < |s.concentration| => s.concentration[i] - 1.0))
  }

  /** Natural -> standard -> natural is the identity as well. */
  lemma DirichletNatRoundTrip(n: DirichletNat)
    ensures DirichletNatFromStd(DirichletStdFromNat(n)) == n
  {
  }

  // ---------------------------------------------------------------------------
  // Gamma
  // ---------------------------------------------------------------------------

  datatype GammaStd = GammaStd(concentration: seq<real>, rate: seq<real>)
  datatype GammaNat = GammaNat(np1: seq<real>, np2: seq<real>)

  predicate GammaStdConvertible(s: GammaStd)
  {
    && |s.concentration| == |s.rate|
    && forall i :: 0 <= i < |s.rate| ==> s.rate[i] != 0.0
  }

  predicate GammaNatConvertible(n: GammaNat)
  {
    && |n.np1| == |n.np2|
    && forall i :: 0 <= i < |n.np2| ==> n.np2[i] != 0.0
  }

  /** `GammaDistribution._std_from_nat`: `rate = -1 / np2`. */
  function GammaStdFromNat(n: GammaNat): (s: GammaStd)
    requires GammaNatConvertible(n)
    ensures GammaStdConvertible(s) && |s.rate| == |n.np2|
    ensures forall i :: 0 <= i < |s.rate| ==> (s.rate[i] > 0.0 <==> n.np2[i] < 0.0)
  {
    GammaStd(seq(|n.np1|, i requires 0 <= i < |n.np1| => n.np1[i] + 1.0),
             seq(|n.np1|, i requires 0 <= i < |n.np1| => -1.0 / n.np2[i]))
  }

  /** `GammaDistribution._nat_from_std`: `np2 = -1 / rate`, so a positive rate
      gives a negative `np2`; undone exactly by `GammaStdFromNat`. */
  function GammaNatFromStd(s: GammaStd): (n: GammaNat)
    requires GammaStdConvertible(s)
    ensures GammaNatConvertible(n) && |n.np2| == |s.rate|
    ensures forall i :: 0 <= i < |n.np2| ==> (s.rate[i] > 0.0 <==> n.np2[i] < 0.0)
    ensures GammaStdFromNat(n) == s
  {
    var n := GammaNat(
      seq(|s.rate|, i requires 0 <= i < |s.rate| => s.concentration[i] - 1.0),
      seq(|s.rate|, i requires 0 <= i < |s.rate| => -1.0 / s.rate[i]));
    assert forall i :: 0 <= i < |s.rate| ==> -1.0 / n.np2[i] == s.rate[i] by {
      forall i | 0 <= i < |s.rate| ensures -1.0 / n.np2[i] == s.rate[i] {
        ReciprocalInvolution(s.rate[i]);
      }
    }
    n
  }

  lemma ReciprocalInvolution(r: real)
    requires r != 0.0
    ensures -1.0 / r != 0.0
    ensures -1.0 / (-1.0 / r) == r
  {
    assert (-1.0 / r) * r == -1.0;
  }

  /** Natural -> standard -> natural is the identity whenever `np2` has no
      zero coordinate. */
  lemma GammaNatRoundTrip(n: GammaNat)
    requires GammaNatConvertible(n)
    ensures GammaNatFromStd(GammaStdFromNat(n)) == n
  {
    var s := GammaStdFromNat(n);
    var r := GammaNatFromStd(s);
    forall i | 0 <= i < |n.np2|
      ensures r.np2[i] == n.np2[i]
    {
      ReciprocalInvolution(n.np2[i]);
    }
  }

  // ---------------------------------------------------------------------------
  // Multinomial
  // ---------------------------------------------------------------------------

  datatype MultinomialNat = MultinomialNat(np1: int, np2: seq<real>)
  datatype MultinomialStd = MultinomialStd(totalCount: int, probs: seq<real>)

  /** `MultinomialDistribution._std_from_nat`: the trial count passes through
      and the probabilities are `exp(np2)` normalised to sum one. `exp` is the
      exponential function, of which the model uses only that it is
      positive. */
  function MultinomialStdFromNat(n: MultinomialNat, exp: real -> real): (s: MultinomialStd)
    requires forall i :: 0 <= i < |n.np2| ==> exp(n.np2[i]) > 0.0
    ensures s.totalCount == n.np1
    ensures |s.probs| == |n.np2|
    ensures forall i :: 0 <= i < |s.probs| ==> s.probs[i] > 0.0
    ensures |s.probs| > 0 ==> Sum(s.probs) == 1.0
    ensures ScalesTo(s.probs, ExpWeights(n.np2, exp))
  {
    var w := ExpWeights(n.np2, exp);
    Normalised(w);
    NormaliseScales(w);
    MultinomialStd(n.np1, Normalise(w))
  }

  /** The unnormalised probabilities `exp(np2)`. */
  function ExpWeights(np2: seq<real>, exp: real -> real): (w: seq<real>)
    ensures |w| == |np2|
    ensures forall i :: 0 <= i < |np2| ==> w[i] == exp(np2[i])
  {
    seq(|np2|, i requires 0 <= i < |np2| => exp(np2[i]))
  }

  /** Each weight divided by the total weight. */
  function Normalise(w: seq<real>): (p: seq<real>)
    requires forall i :: 0 <= i < |w| ==> w[i] > 0.0
    ensures |p| == |w|
    ensures forall i :: 0 <= i < |p| ==> p[i] > 0.0
  {
    if |w| == 0 then []
    else
      PositiveSum(w);
      seq(|w|, i requires 0 <= i < |w| => w[i] / Sum(w))
  }

  /** Each entry of `p` times the total weight is the matching weight: `p`
      is `w` divided by its sum. */
  predicate ScalesTo(p: seq<real>, w: seq<real>)
  {
    |p| == |w| && forall i :: 0 <= i < |w| ==> p[i] * Sum(w) == w[i]
  }

  lemma NormaliseScales(w: seq<real>)
    requires forall i :: 0 <= i < |w| ==> w[i] > 0.0
    ensures ScalesTo(Normalise(w), w)
  {
    if |w| > 0 {
      PositiveSum(w);
      ScaledBack(Normalise(w), w, Sum(w));
    }
  }

  lemma ScaledBack(p: seq<real>, w: seq<real>, c: real)
    requires c != 0.0 && |p| == |w|
    requires forall i :: 0 <= i < |w| ==> p[i] == w[i] / c
    ensures forall i :: 0 <= i < |w| ==> p[i] * c == w[i]
  {
    forall i | 0 <= i < |w|
      ensures p[i] * c == w[i]
    {
      DivTimes(w[i], c);
    }
  }

  lemma Normalised(w: seq<real>)
    requires forall i :: 0 <= i < |w| ==> w[i] > 0.0
    ensures |w| > 0 ==> Sum(Normalise(w)) == 1.0
  {
    if |w| > 0 {
      PositiveSum(w);
      var c := Sum(w);
      SumScaled(w, c);
      assert Normalise(w) == seq(|w|, i requires 0 <= i < |w| => w[i] / c);
      DivSelf(c);
    }
  }

  lemma {:induction false} PositiveSum(w: seq<real>)
    requires forall i :: 0 <= i < |w| ==> w[i] > 0.0
    ensures |w| > 0 ==> Sum(w) > 0.0
    ensures Sum(w) >= 0.0
  {
    if |w| > 0 {
      PositiveSum(w[1..]);
    }
  }

  /** Dividing every entry by `c` divides the sum by `c`. */
  lemma {:induction false} SumScaled(w: seq<real>, c: real)
    requires c != 0.0
    ensures Sum(seq(|w|, i requires 0 <= i < |w| => w[i] / c)) == Sum(w) / c
  {
    var v := seq(|w|, i requires 0 <= i < |w| => w[i] / c);
    if |w| > 0 {
      SumScaled(w[1..], c);
      assert v[1..] == seq(|w[1..]|, i requires 0 <= i < |w[1..]| => w[1..][i] / c);
      assert Sum(v) == w[0] / c + Sum(w[1..]) / c;
    }
  }
}

=== FILE: global_vi.dfy ===
/** The global VI server of pvi/servers/global_vi.py: the pooling of the
    clients' data in `__init__`, the stop rule `should_stop`, and the
    counter and log bookkeeping of `tick`.

    The optimisation itself is outside the model. One optimiser step on a
    minibatch is the function `step(q, epoch, batch)`, and the KL and
    expected log-likelihood of a minibatch are `batchTerms(q, epoch, batch)`.
    Both are parameters, so every property below holds whatever the
    optimiser, the data order and the model do.
 */
module GlobalVi {
  import opened Outcomes

  /** The configuration keys `tick` and `should_stop` read. */
  datatype Config = Config(maxIterations: int, epochs: int, batchSize: Option<int>,
                           homogenousSplit: bool, printEpochs: int)

  /** One training curve: a value of each quantity per epoch. */
  datatype Curve = Curve(elbo: seq<real>, kl: seq<real>, ll: seq<real>)

  /** `log["q"]`, `log["communications"]` and `log["training_curves"]`. */
  datatype ServerLog<Q> = ServerLog(qs: seq<Q>, communications: seq<int>, trainingCurves: seq<Curve>)

  /** The server state `tick` reads and writes: the posterior `q`, the prior
      `p`, and the counters and log. */
  datatype ServerState<Q> = ServerState(q: Q, p: Q, iterations: int, epochs: int, communications: int,
                                        log: ServerLog<Q>)

  /** `should_stop`, written `iterations > max_iterations - 1`: the server
      stops once it has done `max_iterations` iterations. */
  predicate ShouldStop<Q>(s: ServerState<Q>, cfg: Config): (stop: bool)
    ensures stop <==> s.iterations >= cfg.maxIterations
  {
    s.iterations > cfg.maxIterations - 1
  }

  datatype TickError =
    | InhomogeneousSplit  // `homogenous_split` false: NotImplementedError
    | BadBatchSize        // a batch size that is not positive: the data loader refuses it
    | EmptyLoaderData     // no data to shuffle: the data loader's sampler refuses it
    | ZeroPrintEpochs     // `i % print_epochs` with `print_epochs == 0`: ZeroDivisionError

  /** `tick` returns False on a stopped server, returns normally with the
      new state, or raises; a raise leaves the state as it was when the
      exception was raised. */
  datatype TickOutcome<Q> = Stopped | Ticked(state: ServerState<Q>) | Raised(error: TickError, state: ServerState<Q>)

  /** The number of minibatches per epoch, `len(loader)`: the number of
      examples when batching is off (`batch_size=None`), otherwise the
      number of batches of `batch_size` with a short last one. The loader
      builds its shuffling sampler before its batch sampler, so an empty
      dataset is refused before a bad batch size. */
  function LoaderLength(n: nat, batchSize: Option<int>): (r: Result<nat, TickError>)
    ensures r.Success? <==> n > 0 && (batchSize.None? || batchSize.value > 0)
    ensures n == 0 ==> r == Failure(EmptyLoaderData)
    ensures n > 0 && batchSize.Some? && batchSize.value <= 0 ==> r == Failure(BadBatchSize)
    ensures r.Success? && batchSize.Some? ==>
      (r.value - 1) * batchSize.value < n <= r.value * batchSize.value
    ensures r.Success? && batchSize.None? ==> r.value == n
  {
    if n == 0 then Failure(EmptyLoaderData)
    else if batchSize.Some? && batchSize.value <= 0 then Failure(BadBatchSize)
    else if batchSize.None? then Success(n)
    else Success((n + batchSize.value - 1) / batchSize.value)
  }

  /** `q` after the first `b` minibatches of epoch `epoch`. */
  function Batches<Q>(q: Q, epoch: nat, b: nat, step: (Q, nat, nat) -> Q): Q
  {
    if b == 0 then q else step(Batches(q, epoch, b - 1, step), epoch, b - 1)
  }

  /** `q` after `e` whole epochs of `nb` minibatches each. */
  function Epochs<Q>(q: Q, e: nat, nb: nat, step: (Q, nat, nat) -> Q): Q
  {
    if e == 0 then q else Batches(Epochs(q, e - 1, nb, step), e - 1, nb, step)
  }

  /** The number of epochs `range(config["epochs"])` runs. */
  function EpochCount(cfg: Config): nat
  {
    if cfg.epochs > 0 then cfg.epochs else 0
  }

  /** The log entries of the first `e` epochs of a tick starting from `s`. */
  function LoggedQs<Q>(s: ServerState<Q>, e: nat, nb: nat, step: (Q, nat, nat) -> Q): (r: seq<Q>)
    ensures |r| == e
    ensures forall k :: 0 <= k < e ==> r[k] == Epochs(s.q, k + 1, nb, step)
  {
    seq(e, k requires 0 <= k < e => Epochs(s.q, k + 1, nb, step))
  }

  function LoggedCommunications<Q>(s: ServerState<Q>, e: nat, nb: nat): (r: seq<int>)
    ensures |r| == e
    ensures forall k :: 0 <= k < e ==> r[k] == s.communications + (k + 1) * nb
  {
    seq(e, k requires 0 <= k < e => s.communications + (k + 1) * nb)
  }

  /** What a completed tick leaves behind, for a loader of `nb` minibatches
      per epoch: one more iteration, `config["epochs"]` more epochs, one
      communication per minibatch, `q` trained over all of them, one `q`
      and one communication count logged per epoch, one more training curve
      with a value per epoch, and the prior untouched. */
  ghost predicate CompletedTick<Q>(s: ServerState<Q>, t: ServerState<Q>, cfg: Config, nb: nat, step: (Q, nat, nat) -> Q)
  {
    var e := EpochCount(cfg);
    && t.iterations == s.iterations + 1
    && t.epochs == s.epochs + e
    && t.communications == s.communications + e * nb
    && t.p == s.p
    && t.q == Epochs(s.q, e, nb, step)
    && t.log.qs == s.log.qs + LoggedQs(s, e, nb, step)
    && t.log.communications == s.log.communications + LoggedCommunications(s, e, nb)
    && |t.log.trainingCurves| == |s.log.trainingCurves| + 1
    && t.log.trainingCurves[..|s.log.trainingCurves|] == s.log.trainingCurves
    && var c := t.log.trainingCurves[|s.log.trainingCurves|];
       |c.elbo| == e && |c.kl| == e && |c.ll| == e
  }

  /** One epoch: every minibatch counts one communication and takes one
      optimiser step; the epoch's ELBO, KL and log-likelihood are the
      averages over the minibatches. */
  method RunEpoch<Q>(q0: Q, epoch: nat, nb: nat, communications0: int, step: (Q, nat, nat) -> Q,
                     batchTerms: (Q, nat, nat) -> (real, real))
    returns (q: Q, communications: int, elbo: real, kl: real, ll: real)
    ensures q == Batches(q0, epoch, nb, step)
    ensures communications == communications0 + nb
  {
    q, communications := q0, communications0;
    elbo, kl, ll := 0.0, 0.0, 0.0;
    var b := 0;
    while b < nb
      invariant 0 <= b <= nb
      invariant q == Batches(q0, epoch, b, step)
      invariant communications == communications0 + b
    {
      communications := communications + 1;
      var (batchKl, batchLl) := batchTerms(q, epoch, b);
      elbo := elbo + -(batchKl - batchLl) / nb as real;
      kl := kl + batchKl / nb as real;
      ll := ll + batchLl / nb as real;
      q := step(q, epoch, b);
      b := b + 1;
    }
  }

  /** The epoch loop of `tick`, after the loader is set up. */
  method Train<Q>(s: ServerState<Q>, cfg: Config, nb: nat, step: (Q, nat, nat) -> Q,
                  batchTerms: (Q, nat, nat) -> (real, real))
    returns (out: TickOutcome<Q>)
    ensures out.Raised? <==> cfg.printEpochs == 0 && cfg.epochs > 0
    ensures out.Raised? ==> out == Raised(ZeroPrintEpochs, s.(communications := s.communications + nb))
    ensures out.Ticked? <==> !out.Raised?
    ensures out.Ticked? ==> CompletedTick(s, out.state, cfg, nb, step)
  {
    var e := EpochCount(cfg);
    var q := s.q;
    var communications := s.communications;
    var epochs := s.epochs;
    var logQs := s.log.qs;
    var logCommunications := s.log.communications;
    var curve := Curve([], [], []);
    var i := 0;
    while i < cfg.epochs
      invariant 0 <= i <= e
      invariant q == Epochs(s.q, i, nb, step)
      invariant communications == s.communications + i * nb
      invariant epochs == s.epochs + i
      invariant logQs == s.log.qs + LoggedQs(s, i, nb, step)
      invariant logCommunications == s.log.communications + LoggedCommunications(s, i, nb)
      invariant |curve.elbo| == i && |curve.kl| == i && |curve.ll| == i
      invariant i > 0 ==> cfg.printEpochs != 0
    {
      var elbo, kl, ll;
      q, communications, elbo, kl, ll := RunEpoch(q, i, nb, communications, step, batchTerms);
      curve := Curve(curve.elbo + [elbo], curve.kl + [kl], curve.ll + [ll]);
      if cfg.printEpochs == 0 {
        return Raised(ZeroPrintEpochs, s.(communications := communications));
      }
      logQs := logQs + [q];
      logCommunications := logCommunications + [communications];
      epochs := epochs + 1;
      i := i + 1;
      assert LoggedQs(s, i, nb, step) == LoggedQs(s, i - 1, nb, step) + [q];
      assert LoggedCommunications(s, i, nb) == LoggedCommunications(s, i - 1, nb) + [communications];
    }
    var t := ServerState(q, s.p, s.iterations + 1, epochs, communications,
                         ServerLog(logQs, logCommunications, s.log.trainingCurves + [curve]));
    return Ticked(t);
  }

  /** `tick()` on a server holding `n` examples. */
  method Tick<Q>(s: ServerState<Q>, cfg: Config, n: nat, step: (Q, nat, nat) -> Q,
                 batchTerms: (Q, nat, nat) -> (real, real))
    returns (out: TickOutcome<Q>)
    ensures ShouldStop(s, cfg) <==> out == Stopped
    ensures !ShouldStop(s, cfg) && !cfg.homogenousSplit ==> out == Raised(InhomogeneousSplit, s)
    ensures !ShouldStop(s, cfg) && cfg.homogenousSplit && LoaderLength(n, cfg.batchSize).Failure? ==>
      out == Raised(LoaderLength(n, cfg.batchSize).error, s)
    ensures out.Raised? && out.error == ZeroPrintEpochs <==>
      !ShouldStop(s, cfg) && cfg.homogenousSplit && LoaderLength(n, cfg.batchSize).Success?
      && cfg.printEpochs == 0 && cfg.epochs > 0
    ensures out.Raised? && out.error == ZeroPrintEpochs ==>
      out.state == s.(communications := s.communications + LoaderLength(n, cfg.batchSize).value)
    ensures out.Ticked? <==>
      !ShouldStop(s, cfg) && cfg.homogenousSplit && LoaderLength(n, cfg.batchSize).Success?
      && (cfg.printEpochs != 0 || cfg.epochs <= 0)
    ensures out.Ticked? ==> CompletedTick(s, out.state, cfg, LoaderLength(n, cfg.batchSize).value, step)
  {
    if s.iterations > cfg.maxIterations - 1 {
      return Stopped;
    }
    if !cfg.homogenousSplit {
      return Raised(InhomogeneousSplit, s);
    }
    var loader := LoaderLength(n, cfg.batchSize);
    if loader.Failure? {
      return Raised(loader.error, s);
    }
    out := Train(s, cfg, loader.value, step, batchTerms);
  }

  /** The communication counts logged within a tick rise by the number of
      minibatches per epoch, so a log that was non-decreasing and ended at
      most at the current count stays so. */
  lemma CommunicationsStaySorted<Q>(s: ServerState<Q>, e: nat, nb: nat)
    requires forall j, k :: 0 <= j <= k < |s.log.communications| ==> s.log.communications[j] <= s.log.communications[k]
    requires forall j :: 0 <= j < |s.log.communications| ==> s.log.communications[j] <= s.communications
    ensures var c := s.log.communications + LoggedCommunications(s, e, nb);
      forall j, k :: 0 <= j <= k < |c| ==> c[j] <= c[k]
  {
    var c := s.log.communications + LoggedCommunications(s, e, nb);
    var m := |s.log.communications|;
    forall j, k | 0 <= j <= k < |c|
      ensures c[j] <= c[k]
    {
      if k >= m {
        assert c[k] == s.communications + (k - m + 1) * nb;
        if j >= m {
          assert c[j] == s.communications + (j - m + 1) * nb;
          assert (j - m + 1) * nb <= (k - m + 1) * nb;
        }
      }
    }
  }

  /** `GlobalVIServer.__init__`: the pooled dataset concatenates the clients'
      data in client order; with no clients `self.clients[0]` fails. The
      state inherited from the base `Server` constructor is the parameter
      `base`, since pvi/servers/base.py is not part of this model. */
  datatype InitError = NoClients

  function Pool<T>(clientData: seq<seq<T>>): seq<T>
  {
    if |clientData| == 0 then [] else clientData[0] + Pool(clientData[1..])
  }

  function TotalLength<T>(clientData: seq<seq<T>>): nat
  {
    if |clientData| == 0 then 0 else |clientData[0]| + TotalLength(clientData[1..])
  }

  function Init<Q, T>(base: ServerState<Q>, clientData: seq<seq<T>>, initQ: Option<Q>):
    (r: Result<(seq<T>, ServerState<Q>), InitError>)
    ensures r.Failure? <==> |clientData| == 0
    ensures r.Success? ==> r.value.0 == Pool(clientData)
    ensures r.Success? ==> r.value.1.epochs == 0
    ensures r.Success? ==> r.value.1.q == initQ.GetOr(base.q)
    ensures r.Success? ==> r.value.1 == base.(epochs := 0, q := r.value.1.q)
  {
    if |clientData| == 0 then Failure(NoClients)
    else Success((Pool(clientData), base.(epochs := 0, q := initQ.GetOr(base.q))))
  }

  /** The pooled dataset holds exactly the clients' examples: its length is
      the sum of theirs, and client `i`'s data is the slice starting after
      the data of clients `0 .. i - 1`. */
  lemma {:induction false} PoolLength<T>(clientData: seq<seq<T>>)
    ensures |Pool(clientData)| == TotalLength(clientData)
  {
    if |clientData| > 0 {
      PoolLength(clientData[1..]);
    }
  }

  lemma {:induction false} PoolHoldsClient<T>(clientData: seq<seq<T>>, i: int)
    requires 0 <= i < |clientData|
    ensures var start := TotalLength(clientData[..i]);
      start + |clientData[i]| <= |Pool(clientData)|
      && Pool(clientData)[start .. start + |clientData[i]|] == clientData[i]
  {
    PoolLength(clientData);
    if i == 0 {
      assert clientData[..0] == [];
    } else {
      PoolHoldsClient(clientData[1..], i - 1);
      assert clientData[1..][..i - 1] == clientData[1..i];
      assert clientData[..i][1..] == clientData[1..i];
      var start := TotalLength(clientData[..i]);
      var rest := TotalLength(clientData[1..i]);
      assert start == |clientData[0]| + rest;
      PoolLength(clientData[1..]);
      assert Pool(clientData) == clientData[0] + Pool(clientData[1..]);
      assert Pool(clientData)[start .. start + |clientData[i]|]
          == Pool(clientData[1..])[rest .. rest + |clientData[i]|];
    }
  }
}

=== FILE: metrics.dfy ===
/** The confusion counts of a binary classifier at a grid of thresholds:
    `get_posneg` of notebooks/examples/utils.py.

    Labels and predicted probabilities are reals. The two label values the
    counts look at are `1` (the positive cells) and `0` (the negative
    cells), exactly as in the source, whatever the two distinct labels of
    `y` are.
 */
module Metrics {
  import opened Outcomes

  datatype PosNegError =
    | NotBinary       // `len(np.unique(y)) != 2`: NotImplementedError
    | NegativePoints  // `np.linspace(0, 1, n_points)` with `n_points < 0`
    | LengthMismatch  // `y` and `pred_probs` differ in length: the boolean masks do not match,
                      // or for `n_points == 0` `average_precision_score` refuses them

  /** The four count vectors, one entry per threshold, and `n_points`. */
  datatype PosNeg = PosNeg(tp: seq<nat>, fp: seq<nat>, tn: seq<nat>, fn: seq<nat>, nPoints: int)

  /** The distinct labels, `np.unique(y)` as a set. */
  function Labels(y: seq<real>): set<real>
  {
    set i | 0 <= i < |y| :: y[i]
  }

  /** `np.linspace(0, 1, n)` for `n != 1`. */
  function Linspace(n: nat): seq<real>
    requires n != 1
  {
    seq(n, i requires 0 <= i < n => i as real / (n - 1) as real)
  }

  lemma FractionsOrdered(i: int, j: int, d: int)
    requires 0 <= i <= j <= d && d > 0
    ensures 0.0 <= i as real / d as real <= j as real / d as real <= 1.0
  {
    DivMonotone(0.0, i as real, d as real);
    DivMonotone(i as real, j as real, d as real);
    DivMonotone(j as real, d as real, d as real);
    assert d as real / d as real == 1.0;
  }

  lemma LinspaceOrdered(n: nat)
    requires n >= 2
    ensures var t := Linspace(n);
      && t[0] == 0.0 && t[n - 1] == 1.0
      && (forall i :: 0 <= i < n ==> 0.0 <= t[i] <= 1.0)
      && (forall i, j :: 0 <= i <= j < n ==> t[i] <= t[j])
  {
    var t := Linspace(n);
    forall i, j | 0 <= i <= j < n
      ensures 0.0 <= t[i] <= t[j] <= 1.0
    {
      FractionsOrdered(i, j, n - 1);
    }
    assert t[n - 1] == (n - 1) as real / (n - 1) as real;
    DivSelf((n - 1) as real);
  }

  /** Point `i` of the grid is `i / (n - 1)`. */
  lemma LinspacePoints(n: nat)
    requires n >= 2
    ensures forall i :: 0 <= i < n ==> Linspace(n)[i] * (n - 1) as real == i as real
  {
    forall i | 0 <= i < n
      ensures Linspace(n)[i] * (n - 1) as real == i as real
    {
      DivTimes(i as real, (n - 1) as real);
    }
  }

  /** The thresholds: `0.5` alone for one point, else `np.linspace(0, 1, n)`,
      whose point `i` is `i / (n - 1)`. */
  function Thresholds(n: nat): (t: seq<real>)
    ensures |t| == n
    ensures n == 1 ==> t == [0.5]
    ensures n >= 2 ==> forall i :: 0 <= i < n ==> t[i] * (n - 1) as real == i as real
    ensures n >= 2 ==> t[0] == 0.0 && t[n - 1] == 1.0
    ensures forall i :: 0 <= i < n ==> 0.0 <= t[i] <= 1.0
    ensures forall i, j :: 0 <= i <= j < n ==> t[i] <= t[j]
  {
    if n == 1 then [0.5]
    else if n == 0 then []
    else
      LinspaceOrdered(n);
      LinspacePoints(n);
      Linspace(n)
  }

  /** The number of indices whose label is `cls` and whose probability is
      above `thr` (`above`) or not (`!above`). */
  function Cell(y: seq<real>, p: seq<real>, cls: real, above: bool, thr: real): (c: nat)
    requires |y| == |p|
    ensures c <= |y|
  {
    if |y| == 0 then 0
    else (if y[0] == cls && (p[0] > thr) == above then 1 else 0) + Cell(y[1..], p[1..], cls, above, thr)
  }

  /** The number of labels equal to `cls`, `np.sum(y == cls)`. */
  function LabelCount(y: seq<real>, cls: real): nat
  {
    if |y| == 0 then 0 else (if y[0] == cls then 1 else 0) + LabelCount(y[1..], cls)
  }

  /** `get_posneg(y, pred_probs, n_points)` without the three scikit-learn
      scores it adds. A length mismatch is refused: by the boolean masks of
      the counting loop when `n_points >= 1`, and by the first score call,
      `average_precision_score`, when `n_points == 0` leaves the loop empty. */
  function GetPosNeg(y: seq<real>, p: seq<real>, n: int): (r: Result<PosNeg, PosNegError>)
    ensures r.Failure? <==> |Labels(y)| != 2 || (n != 1 && n < 0) || |y| != |p|
    ensures r.Success? ==> |r.value.tp| == |r.value.fp| == |r.value.tn| == |r.value.fn| == n
    ensures r.Success? ==> r.value.nPoints == n
  {
    if |Labels(y)| != 2 then Failure(NotBinary)
    else if n != 1 && n < 0 then Failure(NegativePoints)
    else if |y| != |p| then Failure(LengthMismatch)
    else
      var t := Thresholds(n);
      Success(PosNeg(seq(n, i requires 0 <= i < n => Cell(y, p, 1.0, true, t[i])),
                     seq(n, i requires 0 <= i < n => Cell(y, p, 0.0, true, t[i])),
                     seq(n, i requires 0 <= i < n => Cell(y, p, 0.0, false, t[i])),
                     seq(n, i requires 0 <= i < n => Cell(y, p, 1.0, false, t[i])),
                     n))
  }

  /** The counts at one threshold, in the source's terms: `TP` positives
      above it, `FP` zero labels above it, `TN` zero labels at or below it,
      `FN` positives at or below it. */
  lemma CellsAtThreshold(y: seq<real>, p: seq<real>, n: int, i: int)
    requires GetPosNeg(y, p, n).Success? && 0 <= i < n
    ensures var r := GetPosNeg(y, p, n).value;
      var t := Thresholds(n)[i];
      && r.tp[i] == Cell(y, p, 1.0, true, t) && r.fp[i] == Cell(y, p, 0.0, true, t)
      && r.tn[i] == Cell(y, p, 0.0, false, t) && r.fn[i] == Cell(y, p, 1.0, false, t)
  {
  }

  /** Each label is either above the threshold or not. */
  lemma {:induction false} CellsSplitLabel(y: seq<real>, p: seq<real>, cls: real, thr: real)
    requires |y| == |p|
    ensures Cell(y, p, cls, true, thr) + Cell(y, p, cls, false, thr) == LabelCount(y, cls)
  {
    if |y| > 0 {
      CellsSplitLabel(y[1..], p[1..], cls, thr);
    }
  }

  /** At every threshold `TP + FN` is the number of labels `1` and `FP + TN`
      the number of labels `0`. */
  lemma ConfusionAddsUp(y: seq<real>, p: seq<real>, n: int, i: int)
    requires GetPosNeg(y, p, n).Success? && 0 <= i < n
    ensures var r := GetPosNeg(y, p, n).value;
      && r.tp[i] + r.fn[i] == LabelCount(y, 1.0)
      && r.fp[i] + r.tn[i] == LabelCount(y, 0.0)
  {
    CellsAtThreshold(y, p, n, i);
    CellsSplitLabel(y, p, 1.0, Thresholds(n)[i]);
    CellsSplitLabel(y, p, 0.0, Thresholds(n)[i]);
  }

  /** Raising the threshold never adds a prediction above it. */
  lemma {:induction false} AboveShrinks(y: seq<real>, p: seq<real>, cls: real, lo: real, hi: real)
    requires |y| == |p| && lo <= hi
    ensures Cell(y, p, cls, true, hi) <= Cell(y, p, cls, true, lo)
  {
    if |y| > 0 {
      AboveShrinks(y[1..], p[1..], cls, lo, hi);
    }
  }

  /** Along the threshold grid `TP` and `FP` never grow. */
  lemma PositivesFallAlongGrid(y: seq<real>, p: seq<real>, n: int, i: int, j: int)
    requires GetPosNeg(y, p, n).Success? && 0 <= i <= j < n
    ensures var r := GetPosNeg(y, p, n).value;
      r.tp[j] <= r.tp[i] && r.fp[j] <= r.fp[i]
  {
    CellsAtThreshold(y, p, n, i);
    CellsAtThreshold(y, p, n, j);
    AboveShrinks(y, p, 1.0, Thresholds(n)[i], Thresholds(n)[j]);
    AboveShrinks(y, p, 0.0, Thresholds(n)[i], Thresholds(n)[j]);
  }

  /** The errors in the order the source meets them. The length mismatch
      is the masks' IndexError for `n_points >= 1`; for `n_points == 0` the
      counting loop never runs and it is `average_precision_score`'s
      ValueError. */
  lemma PosNegErrors(y: seq<real>, p: seq<real>, n: int)
    ensures GetPosNeg(y, p, n) == Failure(NotBinary) <==> |Labels(y)| != 2
    ensures GetPosNeg(y, p, n) == Failure(NegativePoints) <==> |Labels(y)| == 2 && n < 0
    ensures GetPosNeg(y, p, n) == Failure(LengthMismatch) <==> |Labels(y)| == 2 && n >= 0 && |y| != |p|
  {
  }
}

=== FILE: outcomes.dfy ===
/** Failure-carrying return types shared by every module of the model.

    The original code signals failure by raising Python exceptions
    (ValueError, NotImplementedError, ...) or by returning `None`. The model
    turns each raise into a `Failure` carrying a module-specific error value
    and each `None` return into `Option.None`.
 */
module Outcomes {

  datatype Option<+T> = None | Some(value: T) {
    function GetOr(default: T): T {
      match this
      case Some(v) => v
      case None => default
    }
  }

  datatype Result<+R, +E> = Success(value: R) | Failure(error: E) {
    predicate IsFailure() {
      Failure?
    }

    function PropagateFailure<U>(): Result<U, E>
      requires Failure?
    {
      Failure(error)
    }

    function Extract(): R
      requires Success?
    {
      value
    }
  }

  /** Sum of a vector of reals. */
  function Sum(s: seq<real>): real
  {
    if |s| == 0 then 0.0 else s[0] + Sum(s[1..])
  }

  function Abs(x: real): real
  {
    if x < 0.0 then -x else x
  }

  lemma DivSelf(c: real)
    requires c != 0.0
    ensures c / c == 1.0
  {
  }

  lemma DivTimes(x: real, d: real)
    requires d != 0.0
    ensures (x / d) * d == x
  {
  }

  lemma DivMonotone(a: real, b: real, c: real)
    requires a <= b && c > 0.0
    ensures a / c <= b / c
  {
    var x, y := a / c, b / c;
    assert x * c == a;
    assert y * c == b;
    if x > y {
      assert x * c > y * c;
    }
  }

  /** A count out of a positive total is a fraction in `[0, 1]`. */
  lemma FractionInUnit(a: nat, b: nat)
    requires a <= b && b > 0
    ensures 0.0 <= a as real / b as real <= 1.0
  {
    DivMonotone(0.0, a as real, b as real);
    DivMonotone(a as real, b as real, b as real);
    DivSelf(b as real);
  }
}

=== FILE: partition.dfy ===
/** The client data partitioner `generate_clients_data` of
    notebooks/examples/utils.py.

    A labelled dataset is a sequence of `Example`s, each pairing a feature row
    with its label; the source keeps the rows and the labels in two arrays of
    equal length and always indexes both with the same index vector, so the
    pairing is never broken. Labels `y > 0` form the positive class, labels
    `y == 0` the negative class.

    The source draws its shuffles from NumPy's global random state. The model
    takes the random source as a parameter `rng`: shuffle number `k` takes its
    `j`-th draw from `rng(k, j)` and uses it to pick the next element, so
    every permutation is reachable and the result is a permutation whatever
    the draws are.
 */
module Partition {
  import opened Outcomes

  datatype Example<X> = Example(x: X, y: real)

  type Shard<X> = seq<Example<X>>

  /** Which of the source's index sets (`np.where(y > 0)`, `np.where(y == 0)`)
      a label falls into; `NegativeLabel` is in neither. */
  datatype LabelClass = PositiveLabel | ZeroLabel | NegativeLabel

  function ClassOf(y: real): LabelClass
  {
    if y > 0.0 then PositiveLabel else if y == 0.0 then ZeroLabel else NegativeLabel
  }

  /** The examples of class `c`, in their original order (`x[np.where(...)]`). */
  function Filter<X>(s: Shard<X>, c: LabelClass): (r: Shard<X>)
    ensures |r| <= |s|
    ensures forall i :: 0 <= i < |r| ==> ClassOf(r[i].y) == c
  {
    if |s| == 0 then []
    else if ClassOf(s[0].y) == c then [s[0]] + Filter(s[1..], c)
    else Filter(s[1..], c)
  }

  function Count<X>(s: Shard<X>, c: LabelClass): nat
  {
    |Filter(s, c)|
  }

  predicate AllOf<X>(s: Shard<X>, c: LabelClass)
  {
    forall i :: 0 <= i < |s| ==> ClassOf(s[i].y) == c
  }

  /** The fraction of positive labels, `np.mean(y > 0)`; `None` stands for the
      NaN that the mean of an empty shard gives. */
  function PropPositive<X>(s: Shard<X>): (p: Option<real>)
    ensures p.None? <==> |s| == 0
    ensures p.Some? ==> 0.0 <= p.value <= 1.0
  {
    if |s| == 0 then None
    else
      FractionInUnit(Count(s, PositiveLabel), |s|);
      Some(Count(s, PositiveLabel) as real / |s| as real)
  }

  // ---------------------------------------------------------------------------
  // Sequence helpers: Python slicing and shuffling
  // ---------------------------------------------------------------------------

  /** Python's `s[:k]`, including the negative-index case. */
  function PyTake<T>(s: seq<T>, k: int): seq<T>
  {
    if k >= 0 then (if k <= |s| then s[..k] else s)
    else if |s| + k >= 0 then s[..|s| + k] else []
  }

  /** Python's `s[k:]`, including the negative-index case. */
  function PyDrop<T>(s: seq<T>, k: int): seq<T>
  {
    if k >= 0 then (if k <= |s| then s[k..] else [])
    else if |s| + k >= 0 then s[|s| + k..] else s
  }

  lemma PySliceSplits<T>(s: seq<T>, k: int)
    ensures PyTake(s, k) + PyDrop(s, k) == s
  {
  }

  /** A permutation of `s` chosen by the draws `rng(k, j), rng(k, j + 1), ...`:
      the model of one `np.random.permutation` applied to a shard. */
  function Shuffle<T>(s: seq<T>, rng: (nat, nat) -> nat, k: nat, j: nat): (r: seq<T>)
    ensures |r| == |s|
    ensures multiset(r) == multiset(s)
    decreases |s|
  {
    if |s| == 0 then []
    else
      var i := rng(k, j) % |s|;
      assert s == s[..i] + [s[i]] + s[i + 1..];
      [s[i]] + Shuffle(s[..i] + s[i + 1..], rng, k, j + 1)
  }

  // ---------------------------------------------------------------------------
  // Counting lemmas
  // ---------------------------------------------------------------------------

  lemma {:induction false} FilterAppend<X>(a: Shard<X>, b: Shard<X>, c: LabelClass)
    ensures Filter(a + b, c) == Filter(a, c) + Filter(b, c)
  {
    if |a| > 0 {
      assert (a + b)[1..] == a[1..] + b;
      FilterAppend(a[1..], b, c);
    } else {
      assert a + b == b;
    }
  }

  lemma ShuffleUnfold<T>(s: seq<T>, rng: (nat, nat) -> nat, k: nat, j: nat)
    requires |s| > 0
    ensures var i := rng(k, j) % |s|;
      Shuffle(s, rng, k, j) == [s[i]] + Shuffle(s[..i] + s[i + 1..], rng, k, j + 1)
  {
  }

  /** Counting is unaffected by moving one element to the front. */
  lemma CountPick<X>(s: Shard<X>, i: nat, c: LabelClass)
    requires i < |s|
    ensures Count(s, c) == Count([s[i]], c) + Count(s[..i] + s[i + 1..], c)
  {
    assert s == s[..i] + ([s[i]] + s[i + 1..]);
    FilterAppend(s[..i], [s[i]] + s[i + 1..], c);
    FilterAppend([s[i]], s[i + 1..], c);
    FilterAppend(s[..i], s[i + 1..], c);
  }

  lemma {:induction false} ShuffleKeepsCounts<X>(s: Shard<X>, rng: (nat, nat) -> nat, k: nat, j: nat, c: LabelClass)
    ensures Count(Shuffle(s, rng, k, j), c) == Count(s, c)
    decreases |s|
  {
    if |s| > 0 {
      var i := rng(k, j) % |s|;
      var rest := s[..i] + s[i + 1..];
      ShuffleUnfold(s, rng, k, j);
      ShuffleKeepsCounts(rest, rng, k, j + 1, c);
      FilterAppend([s[i]], Shuffle(rest, rng, k, j + 1), c);
      CountPick(s, i, c);
    }
  }

  lemma {:induction false} AllOfCounts<X>(s: Shard<X>, c: LabelClass, d: LabelClass)
    requires AllOf(s, c)
    ensures Count(s, c) == |s|
    ensures d != c ==> Count(s, d) == 0
  {
    if |s| > 0 {
      AllOfCounts(s[1..], c, d);
    }
  }

  /** Every example falls in exactly one of the three classes. */
  lemma {:induction false} ClassesPartition<X>(s: Shard<X>)
    ensures Count(s, PositiveLabel) + Count(s, ZeroLabel) + Count(s, NegativeLabel) == |s|
  {
    if |s| > 0 {
      ClassesPartition(s[1..]);
    }
  }

  lemma {:induction false} NoNegativeLabels<X>(s: Shard<X>)
    requires forall i :: 0 <= i < |s| ==> s[i].y >= 0.0
    ensures Count(s, NegativeLabel) == 0
  {
    if |s| > 0 {
      NoNegativeLabels(s[1..]);
    }
  }

  /** Filtering by two different classes picks disjoint parts of `s`. */
  lemma {:induction false} FiltersWithin<X>(s: Shard<X>, c: LabelClass, d: LabelClass)
    requires c != d
    ensures multiset(Filter(s, c)) + multiset(Filter(s, d)) <= multiset(s)
  {
    if |s| > 0 {
      FiltersWithin(s[1..], c, d);
      var fc, fd := Filter(s[1..], c), Filter(s[1..], d);
      assert multiset(s) == multiset{s[0]} + multiset(s[1..]) by {
        assert s == [s[0]] + s[1..];
      }
      if ClassOf(s[0].y) == c {
        assert multiset(Filter(s, c)) == multiset{s[0]} + multiset(fc);
        assert Filter(s, d) == fd;
      } else if ClassOf(s[0].y) == d {
        assert Filter(s, c) == fc;
        assert multiset(Filter(s, d)) == multiset{s[0]} + multiset(fd);
      } else {
        assert Filter(s, c) == fc && Filter(s, d) == fd;
      }
    }
  }

  // ---------------------------------------------------------------------------
  // Pooling shards
  // ---------------------------------------------------------------------------

  /** All examples of all shards together, with multiplicity. */
  ghost function Pooled<X>(shards: seq<Shard<X>>): multiset<Example<X>>
  {
    if |shards| == 0 then multiset{} else multiset(shards[0]) + Pooled(shards[1..])
  }

  /** The sum of the shard sizes, `sum(N_is)`. */
  function TotalSize<X>(shards: seq<Shard<X>>): nat
  {
    if |shards| == 0 then 0 else |shards[0]| + TotalSize(shards[1..])
  }

  lemma {:induction false} PooledSize<X>(shards: seq<Shard<X>>)
    ensures |Pooled(shards)| == TotalSize(shards)
  {
    if |shards| > 0 {
      PooledSize(shards[1..]);
    }
  }

  lemma {:induction false} PooledAppend<X>(a: seq<Shard<X>>, b: seq<Shard<X>>)
    ensures Pooled(a + b) == Pooled(a) + Pooled(b)
  {
    if |a| > 0 {
      assert (a + b)[1..] == a[1..] + b;
      PooledAppend(a[1..], b);
    } else {
      assert a + b == b;
    }
  }

  // ---------------------------------------------------------------------------
  // The two distribution passes
  // ---------------------------------------------------------------------------

  datatype SmallPass<X> = SmallPass(shards: seq<Shard<X>>, posRest: Shard<X>, negRest: Shard<X>)

  /** The loop filling the small clients: each takes the next `a` positives
      and the next `b` negatives and shuffles them; shard number `k` uses the
      draws of shuffle number `k`. */
  function SmallShards<X>(pos: Shard<X>, neg: Shard<X>, a: nat, b: nat, count: nat,
                          rng: (nat, nat) -> nat, k: nat): (r: SmallPass<X>)
    ensures |r.shards| == count
    ensures |r.posRest| == if count * a <= |pos| then |pos| - count * a else 0
    ensures |r.negRest| == if count * b <= |neg| then |neg| - count * b else 0
    decreases count
  {
    if count == 0 then SmallPass([], pos, neg)
    else
      var shard := Shuffle(PyTake(pos, a) + PyTake(neg, b), rng, k, 0);
      var rest := SmallShards(PyDrop(pos, a), PyDrop(neg, b), a, b, count - 1, rng, k + 1);
      DropLeaves(|pos|, a, count);
      DropLeaves(|neg|, b, count);
      SmallPass([shard] + rest.shards, rest.posRest, rest.negRest)
  }

  /** `s[k:]` for `k >= 0` holds `len(s) - k` examples, none when `k > len(s)`;
      `count` such drops leave what one drop of `count · k` would. */
  lemma DropLeaves(len: nat, k: nat, count: nat)
    requires count > 0
    ensures var once := if k <= len then len - k else 0;
      (if (count - 1) * k <= once then once - (count - 1) * k else 0)
      == (if count * k <= len then len - count * k else 0)
  {
    assert count * k == k + (count - 1) * k;
  }

  lemma PooledCons<X>(shard: Shard<X>, rest: seq<Shard<X>>)
    ensures Pooled([shard] + rest) == multiset(shard) + Pooled(rest)
  {
    assert ([shard] + rest)[1..] == rest;
  }

  lemma SliceMultisets<T>(s: seq<T>, k: int)
    ensures multiset(PyTake(s, k)) + multiset(PyDrop(s, k)) == multiset(s)
  {
    PySliceSplits(s, k);
    assert multiset(PyTake(s, k) + PyDrop(s, k)) == multiset(PyTake(s, k)) + multiset(PyDrop(s, k));
  }

  /** Examples pooled over the shards and the two leftovers of a small pass. */
  ghost function PassContents<X>(r: SmallPass<X>): multiset<Example<X>>
  {
    Pooled(r.shards) + multiset(r.posRest) + multiset(r.negRest)
  }

  /** The small pass neither loses nor invents an example. */
  lemma {:induction false} SmallShardsConserve<X>(pos: Shard<X>, neg: Shard<X>, a: nat, b: nat, count: nat,
                                                  rng: (nat, nat) -> nat, k: nat)
    ensures PassContents(SmallShards(pos, neg, a, b, count, rng, k)) == multiset(pos) + multiset(neg)
    decreases count
  {
    if count > 0 {
      SmallShardsConserve(PyDrop(pos, a), PyDrop(neg, b), a, b, count - 1, rng, k + 1);
      ConserveUnfolded(pos, neg, a, b, count, rng, k);
    }
  }

  lemma ConserveUnfolded<X>(pos: Shard<X>, neg: Shard<X>, a: nat, b: nat, count: nat,
                            rng: (nat, nat) -> nat, k: nat)
    requires count > 0
    requires PassContents(SmallShards(PyDrop(pos, a), PyDrop(neg, b), a, b, count - 1, rng, k + 1))
          == multiset(PyDrop(pos, a)) + multiset(PyDrop(neg, b))
    ensures PassContents(SmallShards(pos, neg, a, b, count, rng, k)) == multiset(pos) + multiset(neg)
  {
    SmallShardsUnfold(pos, neg, a, b, count, rng, k);
    ConserveStep(SmallShards(pos, neg, a, b, count, rng, k),
                 SmallShards(PyDrop(pos, a), PyDrop(neg, b), a, b, count - 1, rng, k + 1),
                 Shuffle(PyTake(pos, a) + PyTake(neg, b), rng, k, 0), pos, neg, a, b);
  }

  lemma SmallShardsUnfold<X>(pos: Shard<X>, neg: Shard<X>, a: nat, b: nat, count: nat,
                             rng: (nat, nat) -> nat, k: nat)
    requires count > 0
    ensures var rest := SmallShards(PyDrop(pos, a), PyDrop(neg, b), a, b, count - 1, rng, k + 1);
      SmallShards(pos, neg, a, b, count, rng, k)
      == SmallPass([Shuffle(PyTake(pos, a) + PyTake(neg, b), rng, k, 0)] + rest.shards, rest.posRest, rest.negRest)
  {
  }

  /** One iteration of the small pass, with the shuffle and the rest of the
      pass abstracted to the facts the conservation argument needs. */
  lemma ConserveStep<X>(r: SmallPass<X>, rest: SmallPass<X>, shard: Shard<X>,
                        pos: Shard<X>, neg: Shard<X>, a: nat, b: nat)
    requires r.shards == [shard] + rest.shards
    requires r.posRest == rest.posRest && r.negRest == rest.negRest
    requires multiset(shard) == multiset(PyTake(pos, a) + PyTake(neg, b))
    requires PassContents(rest) == multiset(PyDrop(pos, a)) + multiset(PyDrop(neg, b))
    ensures PassContents(r) == multiset(pos) + multiset(neg)
  {
    PooledCons(shard, rest.shards);
    SliceMultisets(pos, a);
    SliceMultisets(neg, b);
    assert multiset(shard) == multiset(PyTake(pos, a)) + multiset(PyTake(neg, b));
    calc {
      PassContents(r);
      multiset(shard) + PassContents(rest);
      multiset(PyTake(pos, a)) + multiset(PyTake(neg, b)) + multiset(PyDrop(pos, a)) + multiset(PyDrop(neg, b));
      multiset(pos) + multiset(neg);
    }
  }

  /** A small shard as the source builds it: `a` positives and `b` zero
      labels, nothing else. */
  predicate ShardHolds<X>(shard: Shard<X>, a: nat, b: nat)
  {
    && Count(shard, PositiveLabel) == a
    && Count(shard, ZeroLabel) == b
    && |shard| == a + b
  }

  predicate AllShardsHold<X>(shards: seq<Shard<X>>, a: nat, b: nat)
  {
    forall i :: 0 <= i < |shards| ==> ShardHolds(shards[i], a, b)
  }

  lemma AllShardsHoldCons<X>(shard: Shard<X>, rest: seq<Shard<X>>, a: nat, b: nat)
    requires ShardHolds(shard, a, b) && AllShardsHold(rest, a, b)
    ensures AllShardsHold([shard] + rest, a, b)
  {
    forall i | 0 <= i < |[shard] + rest|
      ensures ShardHolds(([shard] + rest)[i], a, b)
    {
      if i > 0 {
        assert ([shard] + rest)[i] == rest[i - 1];
      }
    }
  }

  /** Taking `a` examples from a pool of one class holding enough for
      `count` shards leaves a pool of that class holding enough for
      `count - 1`. */
  lemma TakeFromPool<X>(pool: Shard<X>, a: nat, count: nat, c: LabelClass)
    requires count > 0 && AllOf(pool, c) && |pool| >= count * a
    ensures |PyTake(pool, a)| == a && AllOf(PyTake(pool, a), c)
    ensures AllOf(PyDrop(pool, a), c) && |PyDrop(pool, a)| >= (count - 1) * a
  {
    assert count * a == a + (count - 1) * a;
    assert PyTake(pool, a) == pool[..a];
    assert PyDrop(pool, a) == pool[a..];
  }

  /** The counts of one small shard taken from large enough pools. */
  lemma FirstSmallShard<X>(p: Shard<X>, q: Shard<X>, rng: (nat, nat) -> nat, k: nat)
    requires AllOf(p, PositiveLabel) && AllOf(q, ZeroLabel)
    ensures ShardHolds(Shuffle(p + q, rng, k, 0), |p|, |q|)
  {
    ShuffleKeepsCounts(p + q, rng, k, 0, PositiveLabel);
    ShuffleKeepsCounts(p + q, rng, k, 0, ZeroLabel);
    FilterAppend(p, q, PositiveLabel);
    FilterAppend(p, q, ZeroLabel);
    AllOfCounts(p, PositiveLabel, ZeroLabel);
    AllOfCounts(q, ZeroLabel, PositiveLabel);
  }

  /** When the pools are large enough, every small shard holds exactly `a`
      positives and `b` negatives. */
  lemma {:induction false} SmallShardsComposition<X>(pos: Shard<X>, neg: Shard<X>, a: nat, b: nat, count: nat,
                                                     rng: (nat, nat) -> nat, k: nat)
    requires AllOf(pos, PositiveLabel) && AllOf(neg, ZeroLabel)
    requires |pos| >= count * a && |neg| >= count * b
    ensures AllShardsHold(SmallShards(pos, neg, a, b, count, rng, k).shards, a, b)
    decreases count
  {
    if count > 0 {
      TakeFromPool(pos, a, count, PositiveLabel);
      TakeFromPool(neg, b, count, ZeroLabel);
      SmallShardsComposition(PyDrop(pos, a), PyDrop(neg, b), a, b, count - 1, rng, k + 1);
      CompositionUnfolded(pos, neg, a, b, count, rng, k);
    }
  }

  lemma CompositionUnfolded<X>(pos: Shard<X>, neg: Shard<X>, a: nat, b: nat, count: nat,
                               rng: (nat, nat) -> nat, k: nat)
    requires count > 0
    requires |PyTake(pos, a)| == a && AllOf(PyTake(pos, a), PositiveLabel)
    requires |PyTake(neg, b)| == b && AllOf(PyTake(neg, b), ZeroLabel)
    requires AllShardsHold(SmallShards(PyDrop(pos, a), PyDrop(neg, b), a, b, count - 1, rng, k + 1).shards, a, b)
    ensures AllShardsHold(SmallShards(pos, neg, a, b, count, rng, k).shards, a, b)
  {
    SmallShardsUnfold(pos, neg, a, b, count, rng, k);
    FirstSmallShard(PyTake(pos, a), PyTake(neg, b), rng, k);
    AllShardsHoldCons(Shuffle(PyTake(pos, a) + PyTake(neg, b), rng, k, 0),
                      SmallShards(PyDrop(pos, a), PyDrop(neg, b), a, b, count - 1, rng, k + 1).shards, a, b);
  }

  /** The loop filling the big clients: each takes the next `big` examples of
      the shuffled pool, with Python's slicing rules. */
  function BigShards<X>(pool: Shard<X>, big: int, count: nat): (r: seq<Shard<X>>)
    ensures |r| == count
    ensures big >= 0 ==> forall i :: 0 <= i < count ==> |r[i]| <= big
    ensures big >= 0 && count * big <= |pool| ==> forall i :: 0 <= i < count ==> |r[i]| == big
    decreases count
  {
    if count == 0 then []
    else
      assert count * big == big + (count - 1) * big;
      [PyTake(pool, big)] + BigShards(PyDrop(pool, big), big, count - 1)
  }

  lemma {:induction false} BigShardsWithin<X>(pool: Shard<X>, big: int, count: nat)
    ensures Pooled(BigShards(pool, big, count)) <= multiset(pool)
    decreases count
  {
    if count > 0 {
      BigShardsWithin(PyDrop(pool, big), big, count - 1);
      SliceMultisets(pool, big);
      WithinStep(pool, PyTake(pool, big), PyDrop(pool, big), BigShards(PyDrop(pool, big), big, count - 1));
    }
  }

  /** One big shard taken off the front of the pool, and the later ones
      drawn from what is left. */
  lemma WithinStep<X>(pool: Shard<X>, taken: Shard<X>, left: Shard<X>, rest: seq<Shard<X>>)
    requires multiset(taken) + multiset(left) == multiset(pool)
    requires Pooled(rest) <= multiset(left)
    ensures Pooled([taken] + rest) <= multiset(pool)
  {
    PooledCons(taken, rest);
  }

  // ---------------------------------------------------------------------------
  // generate_clients_data
  // ---------------------------------------------------------------------------

  datatype PartitionError =
    | OddClientCount        // M odd and not 1
    | ZeroClients           // M == 0: division by zero
    | EmptyDataset          // N == 0: the class balance is NaN, int(NaN) fails
    | NegClassSizeNegative  // small_client_negative_class_size < 0
    | PosClassSizeNegative  // small_client_positive_class_size < 0
    | NotEnoughNegatives    // the zero-label pool cannot fill M/2 small clients
    | NotEnoughPositives    // the positive pool cannot fill M/2 small clients
    | LabelOutsideClasses   // a label y < 0: the index-count assertion fails

  /** `client_data`, `N_is`, `props_positive` and `M` as returned. */
  datatype ClientSplit<X> = ClientSplit(shards: seq<Shard<X>>, sizes: seq<nat>,
                                        propsPositive: seq<Option<real>>, clients: int)

  /** The client sizes computed from the dataset size `n`, the client count
      `m`, the two factors and the number `zeros` of zero labels. */
  datatype SizePlan = SizePlan(smallSize: int, bigSize: int, smallNeg: int, smallPos: int, balance: real)

  /** With `zeros <= n`: the class balance is a fraction and times `N` it is
      the number of zero labels; for `M > 0` the small and the big client
      together take at most `2N/M` examples, and a non-negative size factor
      makes the small client no bigger than the big one; the small client's
      two class sizes add up to its size, and a balance factor in `[0, 1]`
      keeps both non-negative, so that only a negative small-client size can
      fail the sign checks; a balance factor of one makes the small clients
      all zero labels, and one of zero gives them the dataset's balance. */
  function PlanSizes(n: nat, m: int, sizeFactor: real, balanceFactor: real, zeros: nat): (p: SizePlan)
    requires n > 0 && m != 0
    ensures p.balance * n as real == zeros as real
    ensures zeros <= n ==> 0.0 <= p.balance <= 1.0
    ensures m > 0 ==> (p.smallSize + p.bigSize) * m <= 2 * n
    ensures m > 0 && sizeFactor >= 0.0 ==> p.smallSize <= p.bigSize
    ensures p.smallNeg + p.smallPos == p.smallSize
    ensures zeros <= n && 0.0 <= balanceFactor <= 1.0 && p.smallSize >= 0 ==>
      0 <= p.smallNeg <= p.smallSize && 0 <= p.smallPos <= p.smallSize
    ensures balanceFactor == 1.0 ==> p.smallNeg == p.smallSize && p.smallPos == 0
    ensures balanceFactor == 0.0 ==> p.smallNeg == (p.smallSize as real * p.balance).Floor
  {
    var smallSize := ((1.0 - sizeFactor) * n as real / m as real).Floor;
    var bigSize := ((1.0 + sizeFactor) * n as real / m as real).Floor;
    var balance := zeros as real / n as real;
    var smallNeg := (smallSize as real * SmallBalance(balance, balanceFactor)).Floor;
    BalanceTimesCount(zeros, n);
    ClientSizesFit(n, m, sizeFactor);
    SmallClassSizes(smallSize, balance, balanceFactor);
    SizePlan(smallSize, bigSize, smallNeg, smallSize - smallNeg, balance)
  }

  lemma BalanceTimesCount(zeros: nat, n: nat)
    requires n > 0
    ensures (zeros as real / n as real) * n as real == zeros as real
    ensures zeros <= n ==> 0.0 <= zeros as real / n as real <= 1.0
  {
    if zeros <= n {
      FractionInUnit(zeros, n);
    }
  }

  /** `floor((1 - f) N/M) + floor((1 + f) N/M) <= 2N/M` for `M > 0`, and
      the first is at most the second when `f >= 0`. */
  lemma ClientSizesFit(n: nat, m: int, f: real)
    requires m != 0
    ensures var small := ((1.0 - f) * n as real / m as real).Floor;
      var big := ((1.0 + f) * n as real / m as real).Floor;
      m > 0 ==> (small + big) * m <= 2 * n && (f >= 0.0 ==> small <= big)
  {
    if m > 0 {
      var x := (1.0 - f) * n as real / m as real;
      var y := (1.0 + f) * n as real / m as real;
      assert x + y == 2.0 * n as real / m as real;
      assert (x + y) * m as real == 2.0 * n as real;
      var s := (x.Floor + y.Floor) as real;
      assert s <= x + y;
      assert s * m as real <= (x + y) * m as real;
      if f >= 0.0 {
        assert y - x == 2.0 * f * n as real / m as real;
      }
    }
  }

  /** `small_client_class_balance`: the class balance `b` moved towards one
      by the balance factor. */
  function SmallBalance(b: real, factor: real): real
  {
    b + (1.0 - b) * factor
  }

  lemma SmallBalanceBounds(b: real, factor: real)
    ensures 0.0 <= b <= 1.0 && 0.0 <= factor <= 1.0 ==> 0.0 <= SmallBalance(b, factor) <= 1.0
    ensures factor == 1.0 ==> SmallBalance(b, factor) == 1.0
    ensures factor == 0.0 ==> SmallBalance(b, factor) == b
  {
    if 0.0 <= b <= 1.0 && 0.0 <= factor <= 1.0 {
      var lift := (1.0 - b) * factor;
      assert 0.0 <= lift <= 1.0 - b by {
        ScaledAtMost(1.0 - b, factor);
      }
      assert SmallBalance(b, factor) == b + lift;
    }
  }

  /** The negative class size `floor(size · SmallBalance(b, factor))` of a
      small client of `size` examples, for a class balance `b`. */
  lemma SmallClassSizes(size: int, b: real, factor: real)
    ensures var neg := (size as real * SmallBalance(b, factor)).Floor;
      && (0.0 <= b <= 1.0 && 0.0 <= factor <= 1.0 && size >= 0 ==> 0 <= neg <= size)
      && (factor == 1.0 ==> neg == size)
      && (factor == 0.0 ==> neg == (size as real * b).Floor)
  {
    SmallBalanceBounds(b, factor);
    if 0.0 <= b <= 1.0 && 0.0 <= factor <= 1.0 && size >= 0 {
      ClassSizeWithin(size, SmallBalance(b, factor));
    }
    if factor == 1.0 {
      WholeFloor(size, SmallBalance(b, factor));
    }
  }

  lemma ClassSizeWithin(size: int, sb: real)
    requires size >= 0 && 0.0 <= sb <= 1.0
    ensures 0 <= (size as real * sb).Floor <= size
  {
    ScaledAtMost(size as real, sb);
    var y := size as real * sb;
    assert 0.0 <= y <= size as real;
  }

  lemma WholeFloor(size: int, one: real)
    requires one == 1.0
    ensures (size as real * one).Floor == size
  {
  }

  lemma ScaledAtMost(x: real, f: real)
    requires x >= 0.0 && 0.0 <= f <= 1.0
    ensures 0.0 <= x * f <= x
  {
    assert x - x * f == x * (1.0 - f);
  }

  /** `small_client_negative_class_size * M/2 > class_balance * N`. */
  predicate TooFewNegatives(p: SizePlan, m: int, n: nat)
  {
    (p.smallNeg * m) as real / 2.0 > p.balance * n as real
  }

  /** `small_client_positive_class_size * M/2 > (1 - class_balance) * N`. */
  predicate TooFewPositives(p: SizePlan, m: int, n: nat)
  {
    (p.smallPos * m) as real / 2.0 > (1.0 - p.balance) * n as real
  }

  /** The plan of `data` for `m` clients. */
  function PlanOf<X>(data: Shard<X>, m: int, sizeFactor: real, balanceFactor: real): SizePlan
    requires |data| > 0 && m != 0
  {
    PlanSizes(|data|, m, sizeFactor, balanceFactor, Count(data, ZeroLabel))
  }

  /** The two passes for `half` small and `half` big clients: the small
      clients draw from the positives and the zero labels of `data`, the big
      clients from the shuffled leftovers. */
  function Distribute<X>(data: Shard<X>, half: nat, smallPos: nat, smallNeg: nat, bigSize: int,
                         rng: (nat, nat) -> nat): (shards: seq<Shard<X>>)
    ensures |shards| == 2 * half
  {
    var small := SmallShards(Filter(data, PositiveLabel), Filter(data, ZeroLabel), smallPos, smallNeg, half, rng, 0);
    var pool := Shuffle(small.posRest + small.negRest, rng, half, 0);
    small.shards + BigShards(pool, bigSize, half)
  }

  /** The returned tuple for the shards: their sizes `N_is` and their
      fractions of positive labels. */
  function Summarise<X>(shards: seq<Shard<X>>, m: int): (r: ClientSplit<X>)
    ensures r.shards == shards && r.clients == m
    ensures |r.sizes| == |shards| == |r.propsPositive|
    ensures forall i :: 0 <= i < |shards| ==>
      r.sizes[i] == |shards[i]| && r.propsPositive[i] == PropPositive(shards[i])
  {
    ClientSplit(shards,
                seq(|shards|, i requires 0 <= i < |shards| => |shards[i]|),
                seq(|shards|, i requires 0 <= i < |shards| => PropPositive(shards[i])),
                m)
  }

  /** `generate_clients_data(x, y, M, client_size_factor, class_balance_factor, _)`. */
  function GenerateClientsData<X>(data: Shard<X>, m: int, sizeFactor: real, balanceFactor: real,
                                  rng: (nat, nat) -> nat): (r: Result<ClientSplit<X>, PartitionError>)
    ensures r.Success? ==> r.value.clients == m && |r.value.shards| == (if m == 1 then 1 else if m > 0 then m else 0)
    ensures r.Success? ==> |r.value.sizes| == |r.value.shards| == |r.value.propsPositive|
    ensures r.Success? ==> forall i :: 0 <= i < |r.value.shards| ==>
      r.value.sizes[i] == |r.value.shards[i]| && r.value.propsPositive[i] == PropPositive(r.value.shards[i])
  {
    var n := |data|;
    if m == 1 then
      Success(Summarise([data], m))
    else if m % 2 != 0 then Failure(OddClientCount)
    else if m == 0 then Failure(ZeroClients)
    else if n == 0 then Failure(EmptyDataset)
    else
      var plan := PlanOf(data, m, sizeFactor, balanceFactor);
      if plan.smallNeg < 0 then Failure(NegClassSizeNegative)
      else if plan.smallPos < 0 then Failure(PosClassSizeNegative)
      else if TooFewNegatives(plan, m, n) then Failure(NotEnoughNegatives)
      else if TooFewPositives(plan, m, n) then Failure(NotEnoughPositives)
      else if exists i :: 0 <= i < n && data[i].y < 0.0 then Failure(LabelOutsideClasses)
      else
        var half := if m > 0 then m / 2 else 0;
        Success(Summarise(Distribute(data, half, plan.smallPos, plan.smallNeg, plan.bigSize, rng), m))
  }

  /** The outcome of the checks of `generate_clients_data`, restated with
      integer counts: the class balance times `N` is the number of zero
      labels, `M/2` is a whole number for an even `M`, and the index-count
      assertion fails exactly when some label is negative. `None` means the
      split goes ahead. */
  function ExpectedError<X>(data: Shard<X>, m: int, sizeFactor: real, balanceFactor: real): Option<PartitionError>
  {
    if m == 1 then None
    else if m % 2 != 0 then Some(OddClientCount)
    else if m == 0 then Some(ZeroClients)
    else if |data| == 0 then Some(EmptyDataset)
    else
      var p := PlanOf(data, m, sizeFactor, balanceFactor);
      if p.smallNeg < 0 then Some(NegClassSizeNegative)
      else if p.smallPos < 0 then Some(PosClassSizeNegative)
      else if p.smallNeg * (m / 2) > Count(data, ZeroLabel) then Some(NotEnoughNegatives)
      else if p.smallPos * (m / 2) > |data| - Count(data, ZeroLabel) then Some(NotEnoughPositives)
      else if Count(data, NegativeLabel) > 0 then Some(LabelOutsideClasses)
      else None
  }

  /** The two pool checks, made in reals by the source, are integer
      comparisons. */
  lemma PoolChecksInCounts(p: SizePlan, n: nat, m: int, zeros: nat)
    requires n > 0 && m % 2 == 0
    requires p.balance * n as real == zeros as real
    ensures TooFewNegatives(p, m, n) <==> p.smallNeg * (m / 2) > zeros
    ensures TooFewPositives(p, m, n) <==> p.smallPos * (m / 2) > n - zeros
  {
    assert p.smallNeg * m == 2 * (p.smallNeg * (m / 2));
    assert p.smallPos * m == 2 * (p.smallPos * (m / 2));
    assert (1.0 - p.balance) * n as real == n as real - zeros as real;
  }

  /** Some label is negative exactly when the negative class is not empty. */
  lemma {:induction false} NegativeLabelsCounted<X>(s: Shard<X>)
    ensures (exists i :: 0 <= i < |s| && s[i].y < 0.0) <==> Count(s, NegativeLabel) > 0
  {
    if |s| > 0 {
      NegativeLabelsCounted(s[1..]);
      if exists i :: 0 <= i < |s[1..]| && s[1..][i].y < 0.0 {
        var i :| 0 <= i < |s[1..]| && s[1..][i].y < 0.0;
        assert s[i + 1].y < 0.0;
      }
      if exists i :: 0 <= i < |s| && s[i].y < 0.0 {
        var i :| 0 <= i < |s| && s[i].y < 0.0;
        if i > 0 {
          assert s[1..][i - 1].y < 0.0;
        }
      }
    }
  }

  /** `generate_clients_data` raises exactly the error the checks predict and
      succeeds exactly when none applies. */
  lemma ErrorTable<X>(data: Shard<X>, m: int, sizeFactor: real, balanceFactor: real, rng: (nat, nat) -> nat)
    ensures var r := GenerateClientsData(data, m, sizeFactor, balanceFactor, rng);
      && (r.Success? <==> ExpectedError(data, m, sizeFactor, balanceFactor).None?)
      && (r.Failure? ==> ExpectedError(data, m, sizeFactor, balanceFactor) == Some(r.error))
  {
    if m != 1 && m % 2 == 0 && m != 0 && |data| > 0 {
      var p := PlanOf(data, m, sizeFactor, balanceFactor);
      var r := GenerateClientsData(data, m, sizeFactor, balanceFactor, rng);
      var n := |data|;
      PoolChecksInCounts(p, n, m, Count(data, ZeroLabel));
      NegativeLabelsCounted(data);
      if p.smallNeg < 0 {
        assert r == Failure(NegClassSizeNegative);
      } else if p.smallPos < 0 {
        assert r == Failure(PosClassSizeNegative);
      } else if TooFewNegatives(p, m, n) {
        assert r == Failure(NotEnoughNegatives);
      } else if TooFewPositives(p, m, n) {
        assert r == Failure(NotEnoughPositives);
      } else if exists i :: 0 <= i < n && data[i].y < 0.0 {
        assert r == Failure(LabelOutsideClasses);
      } else {
        assert r.Success?;
      }
    }
  }

  /** With one client the whole dataset is the single shard. */
  lemma SingleClientKeepsAll<X>(data: Shard<X>, sizeFactor: real, balanceFactor: real, rng: (nat, nat) -> nat)
    ensures GenerateClientsData(data, 1, sizeFactor, balanceFactor, rng)
         == Success(ClientSplit([data], [|data|], [PropPositive(data)], 1))
  {
    var r := Summarise([data], 1);
    assert r.sizes == [|data|];
    assert r.propsPositive == [PropPositive(data)];
  }

  /** An odd client count other than one is refused before any shard exists. */
  lemma OddClientCountRefused<X>(data: Shard<X>, m: int, sizeFactor: real, balanceFactor: real,
                                 rng: (nat, nat) -> nat)
    requires m != 1 && m % 2 != 0
    ensures GenerateClientsData(data, m, sizeFactor, balanceFactor, rng) == Failure(OddClientCount)
  {
  }

  /** The small pass draws from the two class pools and the big pass from
      what is left, so no example of `data` is in two shards. */
  lemma DistributeDraws<X>(data: Shard<X>, half: nat, smallPos: nat, smallNeg: nat, bigSize: int,
                           rng: (nat, nat) -> nat)
    ensures Pooled(Distribute(data, half, smallPos, smallNeg, bigSize, rng)) <= multiset(data)
  {
    var pos, neg := Filter(data, PositiveLabel), Filter(data, ZeroLabel);
    var small := SmallShards(pos, neg, smallPos, smallNeg, half, rng, 0);
    var pool := Shuffle(small.posRest + small.negRest, rng, half, 0);
    var big := BigShards(pool, bigSize, half);
    PooledAppend(small.shards, big);
    SmallShardsConserve(pos, neg, smallPos, smallNeg, half, rng, 0);
    BigShardsWithin(pool, bigSize, half);
    FiltersWithin(data, PositiveLabel, ZeroLabel);
    assert multiset(pool) == multiset(small.posRest) + multiset(small.negRest);
  }

  /** With large enough pools the first `half` shards are the small ones,
      each of the planned composition, and the others are at most `bigSize`
      long. */
  lemma DistributeComposition<X>(data: Shard<X>, half: nat, smallPos: nat, smallNeg: nat, bigSize: int,
                                 rng: (nat, nat) -> nat)
    requires |Filter(data, PositiveLabel)| >= half * smallPos
    requires |Filter(data, ZeroLabel)| >= half * smallNeg
    ensures var shards := Distribute(data, half, smallPos, smallNeg, bigSize, rng);
      && (forall i :: 0 <= i < half ==> ShardHolds(shards[i], smallPos, smallNeg))
      && (bigSize >= 0 ==> forall i :: half <= i < 2 * half ==> |shards[i]| <= bigSize)
  {
    var pos, neg := Filter(data, PositiveLabel), Filter(data, ZeroLabel);
    var small := SmallShards(pos, neg, smallPos, smallNeg, half, rng, 0);
    var pool := Shuffle(small.posRest + small.negRest, rng, half, 0);
    var big := BigShards(pool, bigSize, half);
    assert Distribute(data, half, smallPos, smallNeg, bigSize, rng) == small.shards + big;
    SmallShardsComposition(pos, neg, smallPos, smallNeg, half, rng, 0);
    ConcatParts(small.shards, big, smallPos, smallNeg, bigSize);
  }

  /** Small shards followed by big ones, position by position. */
  lemma ConcatParts<X>(small: seq<Shard<X>>, big: seq<Shard<X>>, a: nat, b: nat, bigSize: int)
    requires AllShardsHold(small, a, b)
    requires bigSize >= 0 ==> forall i :: 0 <= i < |big| ==> |big[i]| <= bigSize
    ensures var s := small + big;
      && (forall i :: 0 <= i < |small| ==> ShardHolds(s[i], a, b))
      && (bigSize >= 0 ==> forall i :: |small| <= i < |s| ==> |s[i]| <= bigSize)
  {
    var s := small + big;
    if bigSize >= 0 {
      forall i | |small| <= i < |s|
        ensures |s[i]| <= bigSize
      {
        assert s[i] == big[i - |small|];
      }
    }
  }

  /** What a successful split with `M != 1` rests on: an even non-zero `M`,
      a non-empty dataset, non-negative class sizes, pools large enough for
      the small pass, and shards made by the two passes. */
  lemma SuccessfulSplit<X>(data: Shard<X>, m: int, sizeFactor: real, balanceFactor: real, rng: (nat, nat) -> nat)
    requires m != 1
    requires GenerateClientsData(data, m, sizeFactor, balanceFactor, rng).Success?
    ensures m % 2 == 0 && m != 0 && |data| > 0
    ensures var p := PlanOf(data, m, sizeFactor, balanceFactor);
      var half := if m > 0 then m / 2 else 0;
      && p.smallNeg >= 0 && p.smallPos >= 0
      && |Filter(data, PositiveLabel)| >= half * p.smallPos
      && |Filter(data, ZeroLabel)| >= half * p.smallNeg
      && GenerateClientsData(data, m, sizeFactor, balanceFactor, rng).value
         == Summarise(Distribute(data, half, p.smallPos, p.smallNeg, p.bigSize, rng), m)
  {
    ErrorTable(data, m, sizeFactor, balanceFactor, rng);
    ClassesPartition(data);
    var p := PlanOf(data, m, sizeFactor, balanceFactor);
    var half := if m > 0 then m / 2 else 0;
    assert ExpectedError(data, m, sizeFactor, balanceFactor).None?;
    assert p.smallNeg >= 0 && p.smallPos >= 0;
    if m > 0 {
      assert half * p.smallPos == p.smallPos * (m / 2);
      assert half * p.smallNeg == p.smallNeg * (m / 2);
    }
    var r := GenerateClientsData(data, m, sizeFactor, balanceFactor, rng);
    assert r == Success(Summarise(Distribute(data, half, p.smallPos, p.smallNeg, p.bigSize, rng), m));
  }

  /** Every successful split: `M` shards when `M >= 2`, no example of the
      input in two shards (nor twice in one), hence `sum(N_is) <= N`. */
  lemma ShardsDrawDisjointly<X>(data: Shard<X>, m: int, sizeFactor: real, balanceFactor: real,
                                rng: (nat, nat) -> nat)
    requires GenerateClientsData(data, m, sizeFactor, balanceFactor, rng).Success?
    ensures var s := GenerateClientsData(data, m, sizeFactor, balanceFactor, rng).value;
      && (m >= 2 ==> |s.shards| == m)
      && Pooled(s.shards) <= multiset(data)
      && TotalSize(s.shards) <= |data|
  {
    var s := GenerateClientsData(data, m, sizeFactor, balanceFactor, rng).value;
    if m == 1 {
      assert s.shards == [data];
      assert Pooled(s.shards) == multiset(data) + Pooled([]);
    } else {
      SuccessfulSplit(data, m, sizeFactor, balanceFactor, rng);
      var p := PlanOf(data, m, sizeFactor, balanceFactor);
      var half := if m > 0 then m / 2 else 0;
      DistributeDraws(data, half, p.smallPos, p.smallNeg, p.bigSize, rng);
    }
    PooledSize(s.shards);
    SubMultisetSize(Pooled(s.shards), multiset(data));
  }

  lemma SubMultisetSize<T>(a: multiset<T>, b: multiset<T>)
    requires a <= b
    ensures |a| <= |b|
  {
    assert b == a + (b - a);
  }

  /** Each of the first `M/2` shards holds exactly
      `small_client_positive_class_size` positives and
      `small_client_negative_class_size` negatives, together
      `floor((1 - client_size_factor) * N / M)` examples; each later shard
      holds at most `big_client_size` examples. */
  lemma ShardComposition<X>(data: Shard<X>, m: int, sizeFactor: real, balanceFactor: real,
                            rng: (nat, nat) -> nat)
    requires m >= 2
    requires GenerateClientsData(data, m, sizeFactor, balanceFactor, rng).Success?
    ensures |data| > 0
    ensures var s := GenerateClientsData(data, m, sizeFactor, balanceFactor, rng).value;
      var p := PlanOf(data, m, sizeFactor, balanceFactor);
      && |s.shards| == m
      && p.smallSize == ((1.0 - sizeFactor) * |data| as real / m as real).Floor
      && (forall i :: 0 <= i < m / 2 ==>
            && Count(s.shards[i], PositiveLabel) == p.smallPos
            && Count(s.shards[i], ZeroLabel) == p.smallNeg
            && |s.shards[i]| == p.smallSize)
      && (p.bigSize >= 0 ==> forall i :: m / 2 <= i < m ==> |s.shards[i]| <= p.bigSize)
  {
    SuccessfulSplit(data, m, sizeFactor, balanceFactor, rng);
    var p := PlanOf(data, m, sizeFactor, balanceFactor);
    DistributeComposition(data, m / 2, p.smallPos, p.smallNeg, p.bigSize, rng);
  }
}

=== FILE: run_config.dfy ===
/** The run set-up of `main` in notebooks/examples/dp_logistic_regression.py:
    the argument checks, the learning-rate milestones, the prior and the
    initial client factors, the client factory call and the choice and
    configuration of the server.

    The dataset split (`standard_client_split`) reads files; its shards are
    the parameter `shards`, and `features` is the number of columns of the
    training inputs.
 */
module RunConfig {
  import opened Outcomes
  import opened ExpFamily
  import Clients

  /** The command-line arguments the set-up reads. */
  datatype RunArgs = RunArgs(dpMode: string, model: string, server: string,
                             batchSize: Option<int>, samplingFracQ: Option<real>,
                             useLrScheduler: bool, nGlobalUpdates: int, nSteps: int, clients: int,
                             dpC: real, dpSigma: real)

  datatype RunError =
    | UnknownDpMode                         // line 60: not one of the eight modes
    | UnknownModel                          // line 63: not one of the four models
    | NoSamplingOption                      // dpsgd or param_fixed with neither option set
    | BothSamplingOptions                   // lfa, local_pvi or param with both options set
    | UnhandledDpMode                       // a mode none of the three branches accepts
    | ClientSetupFailed(cause: Clients.SetupError)
    | UnknownServer                         // pvi with a server other than synchronous or sequential

  const DpModes: set<string> :=
    {"nondp_batches", "nondp_epochs", "dpsgd", "param", "param_fixed", "server", "lfa", "local_pvi"}

  const Models: set<string> := {"pvi", "bcm_split", "bcm_same", "global_vi"}

  /** The checks at the start of `main`, in order; `None` when all pass. */
  function ArgsError(a: RunArgs): (r: Option<RunError>)
    ensures a.dpMode !in DpModes ==> r == Some(UnknownDpMode)
    ensures a.dpMode in DpModes && a.model !in Models ==> r == Some(UnknownModel)
  {
    if a.dpMode !in DpModes then Some(UnknownDpMode)
    else if a.model !in Models then Some(UnknownModel)
    else if a.dpMode in {"dpsgd", "param_fixed"} then
      if a.samplingFracQ.None? && a.batchSize.None? then Some(NoSamplingOption) else None
    else if a.dpMode in {"lfa", "local_pvi", "param"} then
      if a.batchSize.Some? && a.samplingFracQ.Some? then Some(BothSamplingOptions) else None
    else if a.dpMode in {"nondp_batches", "nondp_epochs"} then None
    else Some(UnhandledDpMode)
  }

  /** The arguments the checks accept: a known mode and model, at least one
      sampling option for the DP-SGD modes, not both for the local modes,
      and never the mode `server`, which the first check lets through. */
  lemma ArgsAccepted(a: RunArgs)
    ensures ArgsError(a).None? <==>
      && a.dpMode in DpModes - {"server"}
      && a.model in Models
      && (a.dpMode in {"dpsgd", "param_fixed"} ==> a.batchSize.Some? || a.samplingFracQ.Some?)
      && (a.dpMode in {"lfa", "local_pvi", "param"} ==> a.batchSize.None? || a.samplingFracQ.None?)
  {
  }

  /** For a known model, dpsgd and param_fixed are refused exactly when
      neither sampling option is set; both set is accepted. */
  lemma DpsgdNeedsASamplingOption(a: RunArgs)
    requires a.dpMode in {"dpsgd", "param_fixed"} && a.model in Models
    ensures ArgsError(a) == Some(NoSamplingOption) <==> a.batchSize.None? && a.samplingFracQ.None?
    ensures ArgsError(a).Some? ==> ArgsError(a) == Some(NoSamplingOption)
  {
  }

  /** For a known model, lfa, local_pvi and param are refused exactly when
      both sampling options are set; neither set is accepted. */
  lemma LocalModesRefuseBothOptions(a: RunArgs)
    requires a.dpMode in {"lfa", "local_pvi", "param"} && a.model in Models
    ensures ArgsError(a) == Some(BothSamplingOptions) <==> a.batchSize.Some? && a.samplingFracQ.Some?
    ensures ArgsError(a).Some? ==> ArgsError(a) == Some(BothSamplingOptions)
  {
  }

  /** `server` passes the first check and is refused by the last branch. */
  lemma ServerModeRefusedLate(a: RunArgs)
    requires a.dpMode == "server" && a.model in Models
    ensures ArgsError(a) == Some(UnhandledDpMode)
  {
  }

  /** The learning-rate scheduler parameters: none, or a multi-step schedule. */
  datatype LrParams = NoLrParams | MultiStep(gamma: real, milestones: seq<int>)

  /** The scheduler stays on only when asked for and with more than five
      global updates; it then halves the rate at the middle of the run and
      again two updates before its end. */
  function LrSchedule(use: bool, nGlobalUpdates: int): (r: (bool, LrParams))
    ensures r.0 <==> use && nGlobalUpdates > 5
    ensures r.0 ==> r.1.MultiStep? && r.1.gamma == 0.5 && |r.1.milestones| == 2
    ensures !r.0 ==> r.1 == NoLrParams
  {
    if use && nGlobalUpdates > 5 then (true, MultiStep(0.5, [nGlobalUpdates / 2, nGlobalUpdates - 2]))
    else (false, NoLrParams)
  }

  /** The two milestones lie strictly inside the run and in increasing
      order, so the rate is halved twice. */
  lemma MilestonesInsideRun(use: bool, n: int)
    requires LrSchedule(use, n).0
    ensures var m := LrSchedule(use, n).1.milestones;
      0 < m[0] < m[1] < n && m[0] == n / 2 && m[1] == n - 2
  {
  }

  function Constant(d: nat, v: real): (r: seq<real>)
    ensures |r| == d && forall i :: 0 <= i < d ==> r[i] == v
  {
    seq(d, i requires 0 <= i < d => v)
  }

  /** The client configuration keys the model keeps apart from the three
      privacy keys. */
  datatype ClientSettings = ClientSettings(batchSize: Option<int>, samplingFracQ: Option<real>, epochs: int,
                                           printEpochs: int, useLrScheduler: bool, lrParams: LrParams,
                                           clients: int)

  datatype ServerKind = BcmSame | BcmSplit | GlobalViServer | SynchronousServer | SequentialServer

  /** The extra configuration the global VI server gets. */
  datatype GlobalViSettings = GlobalViSettings(epochs: int, batchSize: Option<int>, samplingFracQ: Option<real>,
                                               printEpochs: int, homogenousSplit: bool)

  datatype ServerSettings = ServerSettings(maxIterations: int, dpMode: string, dpC: real, dpSigma: real,
                                           globalVi: Option<GlobalViSettings>)

  /** What the set-up hands to the training loop. */
  datatype Run<D, M> = Run(clients: seq<Clients.Client<D, M, Clients.ClientConfig<ClientSettings>, ()>>,
                           prior: GaussianStd, initFactor: GaussianNat,
                           serverKind: ServerKind, serverSettings: ServerSettings,
                           clientCount: int, useLrScheduler: bool)

  function ChooseServer(model: string, server: string): (r: Result<ServerKind, RunError>)
    requires model in Models
    ensures r.Failure? <==> model == "pvi" && server !in {"synchronous", "sequential"}
    ensures r.Failure? ==> r.error == UnknownServer
    ensures model == "bcm_same" ==> r == Success(BcmSame)
    ensures model == "bcm_split" ==> r == Success(BcmSplit)
    ensures model == "global_vi" ==> r == Success(GlobalViServer)
    ensures model == "pvi" && server == "synchronous" ==> r == Success(SynchronousServer)
    ensures model == "pvi" && server == "sequential" ==> r == Success(SequentialServer)
  {
    if model == "bcm_same" then Success(BcmSame)
    else if model == "bcm_split" then Success(BcmSplit)
    else if model == "global_vi" then Success(GlobalViServer)
    else if server == "synchronous" then Success(SynchronousServer)
    else if server == "sequential" then Success(SequentialServer)
    else Failure(UnknownServer)
  }

  /** `main` up to the creation of the server. */
  function SetUpRun<D, M>(a: RunArgs, shards: seq<D>, features: nat, model: M): (r: Result<Run<D, M>, RunError>)
    ensures ArgsError(a).Some? ==> r == Failure(ArgsError(a).value)
    ensures r.Success? ==> |r.value.clients| == |shards|
  {
    match ArgsError(a)
    case Some(e) => Failure(e)
    case None =>
      var (useLr, lrParams) := LrSchedule(a.useLrScheduler, a.nGlobalUpdates);
      var settings := ClientSettings(a.batchSize, a.samplingFracQ, a.nSteps, 1, useLr, lrParams, a.clients);
      var clientConfig := Clients.ClientConfig(a.dpMode, a.dpC, a.dpSigma, settings);
      var prior := GaussianStd(Constant(features + 1, 0.0), Constant(features + 1, 1.0));
      var initFactor := GaussianNat(Constant(features + 1, 0.0), Constant(features + 1, 0.0));
      match Clients.SetUpClients(model, shards, initFactor, clientConfig, a.dpMode, a.batchSize, a.samplingFracQ)
      case Failure(e) => Failure(ClientSetupFailed(e))
      case Success(clients) =>
        match ChooseServer(a.model, a.server)
        case Failure(e) => Failure(e)
        case Success(kind) =>
          var maxIterations := if a.model in {"bcm_same", "bcm_split"} then 1 else a.nGlobalUpdates;
          var globalVi := if a.model == "global_vi"
                          then Some(GlobalViSettings(a.nSteps, None, a.samplingFracQ, 1, true))
                          else None;
          var clientCount := if a.model == "global_vi" then 1 else a.clients;
          Success(Run(clients, prior, initFactor, kind,
                      ServerSettings(maxIterations, a.dpMode, a.dpC, a.dpSigma, globalVi),
                      clientCount, useLr))
  }

  /** The prior is a standard normal in every coordinate, features plus the
      bias; the initial factors are all-zero natural parameters of the same
      dimension and so have no standard-parameter form; every client starts
      from them. */
  lemma RunStartsFromStandardNormal<D, M>(a: RunArgs, shards: seq<D>, features: nat, model: M)
    requires SetUpRun(a, shards, features, model).Success?
    ensures var run := SetUpRun(a, shards, features, model).value;
      && ValidGaussianStd(run.prior)
      && |run.prior.loc| == features + 1
      && (forall i :: 0 <= i < features + 1 ==> run.prior.loc[i] == 0.0 && run.prior.variance[i] == 1.0)
      && GaussianNatShaped(run.initFactor) && |run.initFactor.np1| == features + 1
      && !HasGaussianStdForm(run.initFactor)
      && (forall i :: 0 <= i < |run.clients| ==> run.clients[i].t == run.initFactor)
  {
    var run := SetUpRun(a, shards, features, model).value;
    assert run.initFactor.np2[0] == 0.0;
  }

  /** The natural parameters of the prior are `0` and `-1/2` in every
      coordinate. */
  lemma PriorNaturalParameters<D, M>(a: RunArgs, shards: seq<D>, features: nat, model: M)
    requires SetUpRun(a, shards, features, model).Success?
    ensures var run := SetUpRun(a, shards, features, model).value;
      ValidGaussianStd(run.prior)
      && var n := GaussianNatFromStd(run.prior);
         |n.np1| == features + 1 && forall i :: 0 <= i < features + 1 ==> n.np1[i] == 0.0 && n.np2[i] == -0.5
  {
    RunStartsFromStandardNormal(a, shards, features, model);
  }

  /** The server choice: the committee machines run one iteration, the global
      VI server runs with one client, full-batch settings, printing every
      epoch and a homogeneous split; pvi keeps the requested number of
      global updates. */
  lemma ServerSettingsByModel<D, M>(a: RunArgs, shards: seq<D>, features: nat, model: M)
    requires SetUpRun(a, shards, features, model).Success?
    ensures var run := SetUpRun(a, shards, features, model).value;
      && (a.model in {"bcm_same", "bcm_split"} ==> run.serverSettings.maxIterations == 1)
      && (a.model == "bcm_same" <==> run.serverKind == BcmSame)
      && (a.model == "bcm_split" <==> run.serverKind == BcmSplit)
      && (a.model in {"pvi", "global_vi"} ==> run.serverSettings.maxIterations == a.nGlobalUpdates)
      && (a.model == "global_vi" <==> run.serverSettings.globalVi.Some?)
      && (a.model == "global_vi" ==>
            && run.serverKind == GlobalViServer && run.clientCount == 1
            && run.serverSettings.globalVi.value == GlobalViSettings(a.nSteps, None, a.samplingFracQ, 1, true))
      && (a.model != "global_vi" ==> run.clientCount == a.clients)
      && (a.model == "pvi" ==> a.server in {"synchronous", "sequential"})
      && (a.model == "pvi" ==>
            && (run.serverKind == SynchronousServer <==> a.server == "synchronous")
            && (run.serverKind == SequentialServer <==> a.server == "sequential"))
      && run.serverSettings.dpMode == a.dpMode
  {
  }

  /** `param_fixed` passes the argument checks when a sampling option is set
      but the client factory does not know it, so a run with any data fails
      there; without data the factory has nothing to refuse. */
  lemma ParamFixedRefusedByFactory<D, M>(a: RunArgs, shards: seq<D>, features: nat, model: M)
    requires a.dpMode == "param_fixed" && a.model in Models
    requires a.batchSize.Some? || a.samplingFracQ.Some?
    ensures |shards| > 0 ==> SetUpRun(a, shards, features, model) == Failure(ClientSetupFailed(Clients.UnknownMode))
    ensures |shards| == 0 ==> (SetUpRun(a, shards, features, model).Success? <==>
                               ChooseServer(a.model, a.server).Success?)
  {
  }

  /** A pvi run with an unknown server fails only after the clients are
      made, so a client error takes precedence. */
  lemma UnknownServerRefused<D, M>(a: RunArgs, shards: seq<D>, features: nat, model: M)
    requires ArgsError(a).None? && a.model == "pvi" && a.server !in {"synchronous", "sequential"}
    ensures SetUpRun(a, shards, features, model).Failure?
    ensures var r := SetUpRun(a, shards, features, model);
      r.error == UnknownServer <==> (|shards| == 0 || Clients.KindFor(a.dpMode, a.batchSize, a.samplingFracQ).Success?)
  {
  }
}
